=== FILE: README.md ===
# Droplet provisioning decision layer, in Dafny

This project models the decision layer of a DigitalOcean droplet provisioning
tool. The tool is written in TypeScript. The layer covers:

- finding snapshots, firewalls and droplets by name or id;
- filtering the root domain's DNS records down to subdomains;
- turning a speed tier and an SSH-key list into a droplet request;
- the provisioning workflow:
  - create the droplet;
  - wait until it is active;
  - attach the firewall;
  - wait for port 80;
  - add the subdomain;
  - configure nginx and certbot over SSH;
- the generator dispatch that lists, creates (optionally "burning" the droplet later) and deletes droplets.

Every collaborator the code awaits is an input of the model: an HTTP reply, an SSH exit code, a poll trace or the contents of a key file. The operations that issue requests return a `Step`, which pairs the result with the log of outbound requests made: `addFirewallToDroplet`, `waitForNetworkAccess`, `checkDropletStatusOnInit`, `createDroplet`, the subdomain operations, `generateSslCertificate`, `updateNginxConfig` and the generators. The lookups over a reply the caller already fetched return bare values and record no request: `getSnapshotID`, `getFirewallID`, `getDropletIP`, the droplet existence checks and `deleteDroplet`. Where a caller in the core uses one of them, the caller logs the matching request: `ListFirewalls`, `GetDroplet`, `ListDroplets` or `DeleteDroplet`. Nothing in the core calls `getSnapshotID`; it stands alone, and so does its `ListSnapshots` request. Properties such as "no create request", "dispose exactly once" and "never deletes" are stated over that log.

Modules:

- `Wrappers`: `Option`, `Completion` and `Step`.
  - `Completion` is `Returned`, `Threw` or `StillWaiting`. `StillWaiting` means an unbounded poll ran out of trace.
  - `Step` pairs a value with its call log.
- `Text`: JavaScript `trim`, `split`/`join`, substring search and decimal rendering.
- `Api`: the provider's records, replies and the call log.
- `Lookup`: first match (`Array.prototype.find`).
- `GeneralDroplet` (src/general-droplet.ts): the droplet existence checks.
- `Resources` (src/create-droplet.ts): snapshot and firewall lookup, firewall attachment, the public address and the network wait.
- `Profile` (src/create-droplet.ts): the size mapping, SSH-key parsing and the droplet request body.
- `Subdomain` (src/subdomain.ts): the subdomain listing, lookup, creation, readiness wait and deletion.
- `NginxSsl` (src/nginx-ssl.ts): certbot, the two nginx templates and the SSH session.
- `Provision` (src/create-droplet.ts): `checkDropletStatusOnInit` and `createDroplet`.
- `Generator` (src/generator.ts): the generator dispatch.

Two behaviours of the code are worth stating explicitly:

- The status poll of `checkDropletStatusOnInit` sleeps once, for 5 s, after the first poll that finds the droplet not yet active. After that it re-polls immediately.
- The delete at src/create-droplet.ts:172 is commented out. So nothing is deleted when the firewall or network step fails.

## Model

| member | source | states |
|---|---|---|
| Resources.GetSnapshotID | src/create-droplet.ts:91-120 | `undefined` for a failed or empty listing or no match; otherwise the first snapshot whose trimmed name equals the trimmed target |
| Resources.GetFirewallID | src/create-droplet.ts:231-260 | `undefined` for a failed or empty listing, an unset name or no match; otherwise the first firewall matching on trimmed names |
| Resources.FirewallMatchIgnoresSurroundingSpaces | src/create-droplet.ts:242-254 | a firewall whose name is the target padded with whitespace is still found |
| Resources.AddFirewallToDroplet | src/create-droplet.ts:262-312 | exactly one attach request with payload `[dropletId]`; 204 gives the success message, other statuses give "Ok" when the body is non-empty and `undefined` when it is empty, an exception gives `undefined` |
| Resources.GetDropletIP | src/create-droplet.ts:316-359 | the address of the first v4 network of type "public", defined exactly when the status is 200 and such a network exists |
| Resources.ProbeLoop | src/create-droplet.ts:376-408 | reachable iff some attempt in the remaining budget answers 200; never more probes than the budget, exactly the budget on a timeout, and stops at the first success |
| Resources.WaitForNetworkAccess | src/create-droplet.ts:361-409 | no probe without a truthy address; true iff an address exists and some probe within `maxAttempts` answers 200; exceptions are swallowed |
| Resources.AlwaysFailingProbeTimesOut | src/create-droplet.ts:376-408 | a probe that never answers 200 gives `false` after exactly `maxAttempts` probes |
| Profile.GetDropletSize | src/create-droplet.ts:434-453 | ENV "development" forces "c2-4vcpu-8gb-intel"; unknown tiers give "c-8-intel"; the slug is always one of five sizes |
| Profile.SizeDeterminesTier | src/create-droplet.ts:441-449 | outside development, each of the four tiers maps to its own slug, so the tier can be read back from the slug |
| Profile.ParseSshKeys | src/create-droplet.ts:419-425 | keys exist iff the env value is set; there are commas+1 of them, each is the trimmed comma-free piece |
| Profile.ParseSshKeysOfJoin | src/create-droplet.ts:419-425 | joining clean, comma-free keys with commas and parsing gives the same keys back |
| Profile.BuildDropletConfig | src/create-droplet.ts:455-471 | the request carries the name, the snapshot as image, region nyc1, the mapped size, no backups, IPv6 and monitoring on, the tags, and ssh_keys iff the env value is set, holding exactly the parsed keys |
| Profile.ConfigCarriesKeys | src/create-droplet.ts:455-471 | keys configured as a comma-separated list of clean keys reach the request unchanged |
| GeneralDroplet.ListDropletsByAccount | src/general-droplet.ts:38-74 | `[]` on an exception or a status other than 200, otherwise the listed droplets |
| GeneralDroplet.CheckDropletExistsByName | src/general-droplet.ts:76-116 | `undefined` for an empty account; otherwise the first droplet whose name equals the argument exactly, or `undefined` |
| GeneralDroplet.SkipThrowErrorOnlyChangesLog | src/general-droplet.ts:83-84 | `skipThrowError` changes only the logged status, never the droplet returned |
| GeneralDroplet.NameMatchIsNotTrimmed | src/general-droplet.ts:89-96 | " web" does not find a droplet named "web", while "web" does |
| GeneralDroplet.CheckDropletExistsByID | src/general-droplet.ts:118-150 | `undefined` for an empty account or no match; otherwise the first droplet with that id |
| Subdomain.SubdomainsOfMembers | src/subdomain.ts:71-78 | an entry is listed iff it comes from an "A" record whose name is neither "@" nor "api", with the name as label and the data as address |
| Subdomain.SubdomainsOfAppend | src/subdomain.ts:71-78 | the filter keeps order: listing two record runs gives the two listings concatenated |
| Subdomain.ListSubdomains | src/subdomain.ts:39-102 | throws before any request when the domain is unset; `[]` on a failed listing; otherwise the filtered records |
| Subdomain.CheckIfSubdomainExists | src/subdomain.ts:104-116 | the first listed entry whose label equals the argument exactly, `undefined` if none |
| Subdomain.AwaitForSubdomainReady | src/subdomain.ts:216-235 | throws before any request when the domain is unset, as the listing inside it does; otherwise can only return `true`, and returns iff some poll of the trace finds the label; only listing requests and 10 s pauses |
| Subdomain.AddSubdomain | src/subdomain.ts:118-173 | true without a create request when the label already exists; otherwise exactly one "A" record with TTL 1800, requested right after the check; `false` iff the domain is set, the label is absent and the creation raised or answered a status other than 200/201; `true` iff the label existed, or the creation answered 200/201 and some readiness listing shows it |
| Subdomain.CreateAndAwait | src/subdomain.ts:139-172 | the creation request comes first, followed only by readiness polls; `false` iff the creation failed (or the domain is unset); `true` iff it answered 200/201 and some listing shows the label; never throws |
| Subdomain.AddSubdomainCallKinds | src/subdomain.ts:118-173 | `addSubdomain` only lists, creates DNS records and pauses |
| Subdomain.DeleteSubdomain | src/subdomain.ts:175-214 | no delete request and `undefined` when the label is absent; the success message only on status 204 |
| NginxSsl.GenerateSslCertificate | src/nginx-ssl.ts:35-71 | 200 iff certbot exits 0 and the reload does not raise; a failed certbot issues no reload |
| NginxSsl.RunSteps | src/nginx-ssl.ts:159-229 | the commands run are the fixed order up to the first failing one; a step's failure stops all later commands |
| NginxSsl.CommandsRunInOrder | src/nginx-ssl.ts:159-229 | at most seven commands, in the fixed order; all seven when none fails; otherwise the last command run is the one that failed |
| NginxSsl.DisposeExactlyOnce | src/nginx-ssl.ts:146-241 | both variants connect first and dispose exactly once, last, on every path |
| NginxSsl.SslStepsMatchGenerateSslCertificate | src/nginx-ssl.ts:160-166 | the first two session steps fail exactly when `generateSslCertificate` reports something other than 200 |
| NginxSsl.UpdateNginxConfigAsWritten | src/nginx-ssl.ts:235-241 | as written, the answer is always 200 "SSH Connection Shut Down" |
| NginxSsl.UpdateNginxConfig | src/nginx-ssl.ts:148-234 | corrected: 200 iff connected and no step failed, 400 otherwise |
| NginxSsl.FinallyOverridesFailure | src/nginx-ssl.ts:160-166 | with certbot exiting 1, the as-written agent answers 200 while the corrected one answers "Error generating SSH Keys" |
| NginxSsl.GenerateNginxDefault | src/nginx-ssl.ts:73-112 | the default file: the source literal, character for character, with the domain interpolated; its content is stated by `DefaultConfigMentions` |
| NginxSsl.GenerateNginxConfig | src/nginx-ssl.ts:114-137 | the per-domain file: the source literal, character for character, with the domain interpolated; its content is stated by `SiteConfigMentions` |
| NginxSsl.DefaultConfigMentions | src/nginx-ssl.ts:73-112 | the default file names the domain in `server_name`, proxies to localhost:3000, and uses the domain's certificate paths under /etc/letsencrypt/live |
| NginxSsl.SiteConfigMentions | src/nginx-ssl.ts:114-137 | the site file names the domain in `server_name` and proxies to localhost:3000 |
| Provision.AwaitActive | src/create-droplet.ts:133-195 | returns iff a poll finds the droplet active before any raises; throws iff a poll raises first; waits otherwise; no pause except right after the first poll |
| Provision.SleepsOnlyOnce | src/create-droplet.ts:188-193 | whatever the trace, no request other than the second is a pause |
| Provision.DeployingThenActive | src/create-droplet.ts:133-195 | "deploying" polls followed by "active" give one request per poll and a single pause |
| Provision.FirewallStage | src/create-droplet.ts:152-177 | succeeds iff the firewall is found, the attachment answers, and port 80 answers within 30 probes |
| Provision.CheckDropletStatusOnInit | src/create-droplet.ts:124-196 | a truthy address iff the droplet became active, the firewall stage passed when a firewall is configured, and the address lookup gave a truthy address |
| Provision.InitNeverDeletes | src/create-droplet.ts:152-177 | the readiness wait never deletes or creates a droplet; without a firewall name it only polls and pauses |
| Provision.ConfigureAddressed | src/create-droplet.ts:515-564 | deployed iff domain and subdomain are set, the subdomain was added, the SSL settings and key file exist, and the agent answered 200; the outcome's domain is subdomain + "." + domain |
| Provision.AddressedVerdict | src/create-droplet.ts:515-564 | after the droplet is addressed, the outcome is fixed by the guards, the subdomain's outcome and whether the agent answered 200 |
| Provision.OutcomeDependsOnlyOnAgentVerdict | src/create-droplet.ts:542-550 | two agents that report the same verdict lead to the same outcome |
| Provision.CreateDropletWith | src/create-droplet.ts:478-570 | the first request is the droplet request; a non-202 reply gives `undefined`; an exception never escapes; a deployment implies every stage succeeded |
| Provision.CreateDropletCallsOnce | src/create-droplet.ts:478-570 | exactly one create request, first, and never a delete |
| Provision.CreateDropletOutcome | src/create-droplet.ts:532-550 | with the corrected agent, a deployment implies the SSH session connected and every remote step succeeded |
| Provision.CreateDropletAsWritten | src/create-droplet.ts:478-570 | `createDroplet` as written, trusting the always-200 agent: it never throws; `AsWrittenIgnoresRemote` and `AgentsAgreeOnSuccess` relate it to the corrected workflow |
| Provision.AsWrittenIgnoresRemote | src/create-droplet.ts:534-550 | as written, the outcome does not depend on the SSH session at all |
| Provision.CorrectedRejectsFailedConfiguration | src/create-droplet.ts:542-546 | with a refused connection or a failed remote step, the corrected workflow reports no deployment |
| Provision.AgentsAgreeOnSuccess | src/create-droplet.ts:534-550 | when the remote configuration succeeds, both workflows give the same outcome |
| Generator.ListDropletGenerator | src/generator.ts:22-39 | by name whenever a name is given; else by id when the id is non-zero; else `undefined` with no request |
| Generator.NameTakesPrecedence | src/generator.ts:28-31 | with a name given, the id never changes the result |
| Generator.CreateDropletGenerator | src/generator.ts:41-71 | an existing droplet or unset `create` gives `undefined` with no create request; otherwise the restore request is issued exactly when the created id and the snapshot are truthy; without `burn` the answer is the restored droplet when the restore answered, else the created one; `burn` always gives `undefined` and schedules the delete of that same droplet; never a direct delete |
| Generator.BurnSchedulesDelete | src/generator.ts:55-69 | with `burn`, the kept droplet (restored if the restore answered, else created) is scheduled for deletion by id after 90000 ms; without it, that droplet is returned |
| Generator.DeleteDropletMessage | src/delete-droplet.ts:53-66 | a success message iff the delete answers 204 |
| Generator.DeleteDropletGenerator | src/generator.ts:73-98 | no delete request and `undefined` when the lookup fails; otherwise one delete and a success or failure message, never `undefined` |
| Text.JoinSplit | src/create-droplet.ts:423 | joining the pieces of a split string gives the string back |
| Text.SplitJoin | src/create-droplet.ts:423 | separator-free pieces split back out of their join, so a comma-joined key list splits into exactly its keys |
| Text.TrimDecomposes | src/create-droplet.ts:424 | every string is its trimmed form wrapped in two runs of whitespace |
| Text.TrimOfWrapped | src/create-droplet.ts:424 | trimming removes exactly the surrounding whitespace of a clean string |

## Left out

- HTTP (axios), SSH (node-ssh), `fs`/`os` key-file reading and `process.env`. Their outcomes are inputs: replies, exit codes, traces, key-file contents and env values.
- Wall-clock timing. The model has no clock. The 1 s, 5 s and 10 s sleeps appear only as `Pause` entries in the call log, and the 90 s burn timer appears only as a `ScheduleDelete` entry. The probe's 1 s request timeout has no entry of its own: a probe that times out is a `ProbeRaised` reply.
- Termination of the two unbounded polls (src/create-droplet.ts:135, src/subdomain.ts:222). They run over a finite trace and report `StillWaiting` when the trace ends.
- `logData` and all console output, including the log messages. Only the logged status of the name lookup is kept.
- index.ts (the CLI), src/ssl-nginx.ts (an older copy nothing imports), src/ssl.ts and interfaces/interfaces.ts (type declarations only). src/delete-droplet.ts appears only as the `Generator.DeleteDropletMessage` collaborator.
- The key path's `~` expansion and the file-existence check. They are folded into the `privateKey` input, where `None` means the file is missing.
- A JavaScript `TypeError`, such as a reply body without the expected field. Bodies are assumed well-typed, except that a listing may lack its collection field.
- Generator.CreateDropletGenerator: the created and restored droplets come from abstract collaborators. In the source, `createDroplet` is called with one argument and `restoreDropletFromSnapshot` is not exported, so the composition is not modelled. The abstraction also hides one consequence. Called with one argument, `createDroplet` has no subdomain and answers `undefined` on every path (src/create-droplet.ts:517, 564). The restore and the burn never run, and the generator answers `undefined`.
- The `showAttempts` log branch of the network wait (src/create-droplet.ts:398-403), which is switched off by a constant.

## Findings

| source | as written | input that shows it | evidently intended | confidence | as-written member | corrected member |
|---|---|---|---|---|---|---|
| src/nginx-ssl.ts:235-241 | the `finally` block returns `{status: 200, "SSH Connection Shut Down"}`. That replaces the `try`/`catch` result, so a failed certbot run, write, symlink or `nginx -t` still reports 200, and `createDroplet` reports a deployment | a connected session whose certbot command exits with code 1 | `finally` only disposes of the session, and the `try` block ends by answering 200 after the last reload (it has no `return` there, so moving the `finally` return alone would answer `undefined` on success); the 400 responses reach `createDroplet`, which then reports `undefined` | not executed | NginxSsl.UpdateNginxConfigAsWritten | NginxSsl.UpdateNginxConfig |

=== FILE: api.dfy ===
/** The provider's records as the core reads them, the shape of a collaborator's
    reply, and the log of outbound calls every operation of the model returns. */
module Api {
  import opened Wrappers

  /** One entry of a droplet's `networks.v4` list; `kind` is the provider's `type` field. */
  datatype Network = Network(ipAddress: string, netmask: string, gateway: string, kind: string)

  /** The fields of a droplet record the core reads. */
  datatype Droplet = Droplet(id: int, name: string, status: string, v4: seq<Network>)

  datatype Snapshot = Snapshot(id: string, name: string)

  datatype Firewall = Firewall(id: string, name: string)

  /** A DNS record of the root domain; `kind` is the record type ("A", "CNAME", ...). */
  datatype DnsRecord = DnsRecord(id: int, name: string, kind: string, data: string)

  /** An entry of the subdomain listing built from an "A" record. */
  datatype SubdomainEntry = SubdomainEntry(id: int, subdomain: string, domain: string, ip: string)

  /** The body of the request that creates a DNS record. */
  datatype RecordPayload = RecordPayload(kind: string, name: string, data: string, ttl: int)

  /** The body of the request that creates a droplet. `None` marks a field the
      source leaves out of the object. */
  datatype DropletConfig = DropletConfig(
    name: string,
    region: string,
    size: string,
    image: string,
    backups: bool,
    ipv6: bool,
    monitoring: bool,
    tags: Option<seq<string>>,
    sshKeys: Option<seq<string>>)

  /** What an awaited HTTP request gave back: a response with its status code
      and decoded body, or an exception (transport failure or a status the
      client rejects). */
  datatype Reply<+T> = Raised | Response(status: int, body: T)

  /** A listing reply whose collection field may be absent from the body. */
  type ListReply<T> = Reply<Option<seq<T>>>

  /** Outbound effects, in the order an operation performs them. */
  datatype Call =
    | ListSnapshots
    | ListFirewalls
    | AttachFirewall(firewallId: string, dropletIds: seq<int>)
    | ListDroplets
    | GetDroplet(dropletId: int)
    | CreateDroplet(config: DropletConfig)
    | DeleteDroplet(dropletId: int)
    | ProbeHttp(ip: string, port: int)
    | ListRecords
    | CreateRecord(payload: RecordPayload)
    | DeleteRecord(recordId: int)
    | Connect(host: string, username: string)
    | Exec(command: string)
    | Dispose
    | Pause(ms: int)
    | RunCreateDroplet(dropletName: string)
    | RestoreSnapshot(dropletId: int)
    | ScheduleDelete(dropletId: int, delayMs: int)

  /** The number of HTTP reachability probes in a call log. */
  function Probes(calls: seq<Call>): nat {
    if |calls| == 0 then 0 else (if calls[0].ProbeHttp? then 1 else 0) + Probes(calls[1..])
  }

  lemma {:induction false} ProbesAppend(a: seq<Call>, b: seq<Call>)
    ensures Probes(a + b) == Probes(a) + Probes(b)
    decreases |a|
  {
    if |a| > 0 {
      assert (a + b)[1..] == a[1..] + b;
      ProbesAppend(a[1..], b);
    } else {
      assert a + b == b;
    }
  }

  /** The body of a listing reply, or `undefined` on an exception or a status other than 200. */
  function ListBody<T>(reply: ListReply<T>): (r: Option<seq<T>>)
    ensures r.Some? <==> reply.Response? && reply.status == 200 && reply.body.Some?
    ensures r.Some? ==> r.value == reply.body.value
  {
    match reply
    case Raised => None
    case Response(status, body) => if status != 200 then None else body
  }
}

=== FILE: general_droplet.dfy ===
/** The existence resolver for droplets (src/general-droplet.ts): list the
    account's droplets, then scan for an exact name or id. */
module GeneralDroplet {
  import opened Wrappers
  import opened Api
  import Lookup

  /** `listDropletsByAccount`: any failure of the listing reads as an empty
      account. A 200 body without a `droplets` field fails on `.length` inside
      the same `try`, so it too yields `[]`. */
  function ListDropletsByAccount(reply: ListReply<Droplet>): (r: seq<Droplet>)
    ensures ListBody(reply).None? ==> r == []
    ensures ListBody(reply).Some? ==> r == reply.body.value
  {
    match ListBody(reply)
    case None => []
    case Some(droplets) => droplets
  }

  predicate NamedExactly(name: string, d: Droplet) {
    d.name == name
  }

  /** What a lookup by name returns, and the status it writes to the log. */
  datatype NameLookup = NameLookup(found: Option<Droplet>, logStatus: int)

  /** `checkDropletExistsByName`: the first droplet whose name equals `name`
      character for character (no trimming). `skipThrowError` only turns the
      logged 404 of a miss into 102 (empty account) or 100 (no such name). */
  function CheckDropletExistsByName(reply: ListReply<Droplet>, name: string, skipThrowError: bool)
    : (r: NameLookup)
    ensures ListDropletsByAccount(reply) == [] ==> r.found.None?
    ensures r.found.None? <==>
              forall j :: 0 <= j < |ListDropletsByAccount(reply)| ==>
                ListDropletsByAccount(reply)[j].name != name
    ensures r.found.Some? ==>
              exists k :: 0 <= k < |ListDropletsByAccount(reply)|
                && ListDropletsByAccount(reply)[k] == r.found.value
                && r.found.value.name == name
                && forall j :: 0 <= j < k ==> ListDropletsByAccount(reply)[j].name != name
    ensures r.found.Some? <==> r.logStatus == 200
  {
    var droplets := ListDropletsByAccount(reply);
    if |droplets| == 0 then
      NameLookup(None, if skipThrowError then 102 else 404)
    else
      match Lookup.Find(droplets, d => NamedExactly(name, d))
      case Some(d) => NameLookup(Some(d), 200)
      case None => NameLookup(None, if skipThrowError then 100 else 404)
  }

  /** The flag that suppresses error logging never changes the droplet found. */
  lemma SkipThrowErrorOnlyChangesLog(reply: ListReply<Droplet>, name: string)
    ensures CheckDropletExistsByName(reply, name, true).found
         == CheckDropletExistsByName(reply, name, false).found
    ensures CheckDropletExistsByName(reply, name, false).found.None? ==>
              CheckDropletExistsByName(reply, name, false).logStatus == 404
  {
  }

  /** Matching is exact: a droplet whose name differs from the requested one
      only by surrounding spaces is not found, while the same droplet under
      the exact name is. */
  lemma NameMatchIsNotTrimmed(d: Droplet)
    requires d.name == "web"
    ensures CheckDropletExistsByName(Response(200, Some([d])), " web", false).found == None
    ensures CheckDropletExistsByName(Response(200, Some([d])), "web", false).found == Some(d)
  {
  }

  /** `checkDropletExistsByID`: the first droplet with the given id. */
  function CheckDropletExistsByID(reply: ListReply<Droplet>, dropletId: int): (r: Option<Droplet>)
    ensures ListDropletsByAccount(reply) == [] ==> r.None?
    ensures r.None? <==>
              forall j :: 0 <= j < |ListDropletsByAccount(reply)| ==>
                ListDropletsByAccount(reply)[j].id != dropletId
    ensures r.Some? ==>
              exists k :: 0 <= k < |ListDropletsByAccount(reply)|
                && ListDropletsByAccount(reply)[k] == r.value
                && r.value.id == dropletId
                && forall j :: 0 <= j < k ==> ListDropletsByAccount(reply)[j].id != dropletId
  {
    var droplets := ListDropletsByAccount(reply);
    if |droplets| == 0 then None
    else Lookup.Find(droplets, (d: Droplet) => d.id == dropletId)
  }
}

=== FILE: generator.dfy ===
/** The generator dispatch of src/generator.ts: look a droplet up by name or
    id, create one unless it exists (optionally restoring a snapshot and
    scheduling its deletion), and delete one. The create, restore and delete
    requests are collaborators whose results are parameters. */
module Generator {
  import opened Wrappers
  import opened Api
  import opened Text
  import opened GeneralDroplet

  /** The burn delay: a minute and a half. */
  const BurnDelayMs: int := 90000

  /** An id is truthy unless it is 0. */
  predicate IdGiven(id: Option<int>) {
    id.Some? && id.value != 0
  }

  /** `listDropletGenerator`: by name whenever a name is given (even with an
      id), else by id when the id is truthy, else `undefined` with no request. */
  function ListDropletGenerator(name: Option<string>, id: Option<int>, account: ListReply<Droplet>)
    : (r: Step<Option<Droplet>, Call>)
    ensures Truthy(name) ==>
              r.calls == [ListDroplets] && r.value == CheckDropletExistsByName(account, name.value, false).found
    ensures !Truthy(name) && IdGiven(id) ==>
              r.calls == [ListDroplets] && r.value == CheckDropletExistsByID(account, id.value)
    ensures !Truthy(name) && !IdGiven(id) ==> r.value.None? && r.calls == []
    ensures r.value.Some? ==> r.value.value in ListDropletsByAccount(account)
  {
    if Truthy(name) then Step(CheckDropletExistsByName(account, name.value, false).found, [ListDroplets])
    else if IdGiven(id) then Step(CheckDropletExistsByID(account, id.value), [ListDroplets])
    else Step(None, [])
  }

  /** A name takes precedence: with a name given, the id is never consulted. */
  lemma NameTakesPrecedence(name: string, id1: Option<int>, id2: Option<int>, account: ListReply<Droplet>)
    requires name != ""
    ensures ListDropletGenerator(Some(name), id1, account) == ListDropletGenerator(Some(name), id2, account)
  {
  }

  /** The collaborators' results for `createDropletGenerator`: the droplet the
      create request answers, and the droplet the snapshot restore answers. */
  datatype CreateCollaborators = CreateCollaborators(created: Option<Droplet>, restored: Option<Droplet>)

  /** The restore runs when the created droplet has a non-zero id and a
      snapshot is configured. */
  predicate Restores(c: CreateCollaborators, snapshotId: Option<string>) {
    c.created.Some? && c.created.value.id != 0 && Truthy(snapshotId)
  }

  /** `createDropletGenerator`: nothing is created when a droplet of that name
      exists or `create` is unset, and then the answer is `undefined`. Otherwise
      create it, restore the snapshot into it when both the id and the
      snapshot are truthy (keeping the restored droplet if there is one), and
      with `burn` schedule its deletion and answer `undefined`. */
  function CreateDropletGenerator(name: string, create: bool, burn: bool, account: ListReply<Droplet>,
                                  snapshotId: Option<string>, c: CreateCollaborators)
    : (r: Step<Option<Droplet>, Call>)
    ensures |r.calls| >= 1 && r.calls[0] == ListDroplets
    ensures CheckDropletExistsByName(account, name, false).found.Some? || !create ==>
              r.value.None? && r.calls == [ListDroplets]
    ensures CheckDropletExistsByName(account, name, false).found.None? && create ==>
              |r.calls| >= 2 && r.calls[1] == RunCreateDroplet(name)
    ensures (forall k :: 0 <= k < |r.calls| ==> !r.calls[k].RunCreateDroplet?) ==>
              r.value.None? && r.calls == [ListDroplets]
    ensures burn ==> r.value.None?
    ensures r.value.Some? ==> r.value == c.created || r.value == c.restored
    ensures forall k :: 0 <= k < |r.calls| ==> !r.calls[k].DeleteDroplet?
    ensures CheckDropletExistsByName(account, name, false).found.None? && create && !burn ==>
              r.value == (if Restores(c, snapshotId) && c.restored.Some? then c.restored else c.created)
    ensures forall k :: 0 <= k < |r.calls| && r.calls[k].RestoreSnapshot? ==>
              Restores(c, snapshotId) && r.calls[k] == RestoreSnapshot(c.created.value.id)
    ensures CheckDropletExistsByName(account, name, false).found.None? && create && Restores(c, snapshotId) ==>
              |r.calls| >= 3 && r.calls[2] == RestoreSnapshot(c.created.value.id)
    ensures forall k :: 0 <= k < |r.calls| && r.calls[k].ScheduleDelete? ==>
              && k == |r.calls| - 1 && burn
              && var kept := if Restores(c, snapshotId) && c.restored.Some? then c.restored else c.created;
                 kept.Some? && r.calls[k] == ScheduleDelete(kept.value.id, BurnDelayMs)
  {
    var existing := CheckDropletExistsByName(account, name, false).found;
    if !(existing.None? && create) then Step(None, [ListDroplets])
    else
      var droplet := if Restores(c, snapshotId) && c.restored.Some? then c.restored else c.created;
      var burns := droplet.Some? && burn;
      if Restores(c, snapshotId) then
        var restoring := RestoreSnapshot(c.created.value.id);
        if burns then Step(None, [ListDroplets, RunCreateDroplet(name), restoring, ScheduleDelete(droplet.value.id, BurnDelayMs)])
        else Step(droplet, [ListDroplets, RunCreateDroplet(name), restoring])
      else
        if burns then Step(None, [ListDroplets, RunCreateDroplet(name), ScheduleDelete(droplet.value.id, BurnDelayMs)])
        else Step(droplet, [ListDroplets, RunCreateDroplet(name)])
  }

  /** With `burn` set, a created droplet is scheduled for deletion after
      90000 ms (the restored droplet when the restore answered, else the
      created one), and the answer is `undefined`; without it, that same
      droplet is the answer. */
  lemma {:induction false} BurnSchedulesDelete(name: string, account: ListReply<Droplet>, snapshotId: Option<string>,
                                               c: CreateCollaborators)
    requires CheckDropletExistsByName(account, name, false).found.None?
    requires c.created.Some?
    ensures var kept := if Restores(c, snapshotId) && c.restored.Some? then c.restored.value else c.created.value;
            var r := CreateDropletGenerator(name, true, true, account, snapshotId, c);
            && r.value.None?
            && |r.calls| >= 1
            && r.calls[|r.calls| - 1] == ScheduleDelete(kept.id, BurnDelayMs)
    ensures var kept := if Restores(c, snapshotId) && c.restored.Some? then c.restored.value else c.created.value;
            CreateDropletGenerator(name, true, false, account, snapshotId, c).value == Some(kept)
  {
    var restore := Restores(c, snapshotId);
    var droplet := if restore && c.restored.Some? then c.restored else c.created;
    assert droplet.Some?;
  }

  /** `deleteDroplet`: the success message on status 204, `undefined` on any
      other status or an exception. */
  function DeleteDropletMessage(dropletId: int, reply: Reply<()>): (r: Option<string>)
    ensures r.Some? <==> reply.Response? && reply.status == 204
    ensures r.Some? ==> r.value == "Droplet with ID " + IntToString(dropletId) + " has been deleted successfully"
  {
    if reply.Response? && reply.status == 204 then
      Some("Droplet with ID " + IntToString(dropletId) + " has been deleted successfully")
    else None
  }

  function DeletedMessage(dropletId: int): string {
    "Deleted Droplet with ID: " + IntToString(dropletId)
  }

  function DeleteFailedMessage(dropletId: int): string {
    "Delete Droplet Failed for ID: " + IntToString(dropletId)
  }

  /** `deleteDropletGenerator`: `undefined` without a delete request when the
      lookup finds nothing; otherwise one delete request for the droplet
      found, answered by a success or a failure message (never `undefined`). */
  function DeleteDropletGenerator(name: Option<string>, id: Option<int>, account: ListReply<Droplet>,
                                  deleted: Reply<()>)
    : (r: Step<Option<string>, Call>)
    ensures ListDropletGenerator(name, id, account).value.None? ==>
              r.value.None? && forall k :: 0 <= k < |r.calls| ==> !r.calls[k].DeleteDroplet?
    ensures ListDropletGenerator(name, id, account).value.Some? ==>
              var d := ListDropletGenerator(name, id, account).value.value;
              && |r.calls| >= 1 && r.calls[|r.calls| - 1] == DeleteDroplet(d.id)
              && r.value == Some(if deleted.Response? && deleted.status == 204 then DeletedMessage(d.id)
                                 else DeleteFailedMessage(d.id))
    ensures r.value.Some? <==> ListDropletGenerator(name, id, account).value.Some?
  {
    var found := ListDropletGenerator(name, id, account);
    match found.value
    case None => Step(None, found.calls)
    case Some(d) =>
      var calls := found.calls + [DeleteDroplet(d.id)];
      if DeleteDropletMessage(d.id, deleted).None? then Step(Some(DeleteFailedMessage(d.id)), calls)
      else Step(Some(DeletedMessage(d.id)), calls)
  }
}

=== FILE: lookup.dfy ===
/** First-match search, the `Array.prototype.find` every resolver of the source is built on. */
module Lookup {
  import opened Wrappers

  /** The position of the first element satisfying `p`. */
  function FirstIndex<T>(s: seq<T>, p: T -> bool): (r: Option<nat>)
    ensures r.Some? ==> r.value < |s| && p(s[r.value])
    ensures r.Some? ==> forall j :: 0 <= j < r.value ==> !p(s[j])
    ensures r.None? <==> forall j :: 0 <= j < |s| ==> !p(s[j])
  {
    if |s| == 0 then None
    else if p(s[0]) then Some(0)
    else
      match FirstIndex(s[1..], p)
      case None => None
      case Some(k) => Some(k + 1)
  }

  /** `s.find(p)`: the first element satisfying `p`, or `undefined`. */
  function Find<T>(s: seq<T>, p: T -> bool): (r: Option<T>)
    ensures r.None? <==> forall j :: 0 <= j < |s| ==> !p(s[j])
    ensures r.Some? ==> exists k :: 0 <= k < |s| && s[k] == r.value && p(s[k])
                                     && forall j :: 0 <= j < k ==> !p(s[j])
  {
    match FirstIndex(s, p)
    case None => None
    case Some(k) => Some(s[k])
  }
}

=== FILE: nginx_ssl.dfy ===
/** The remote configuration agent (src/nginx-ssl.ts): one SSH session to the
    new droplet that issues a certificate with certbot, writes and enables the
    nginx site, tests and reloads nginx, and always closes the session. */
module NginxSsl {
  import opened Wrappers
  import opened Api
  import opened Text

  /** How one remote command ended: an exit code, or an exception from the session. */
  datatype ExecReply = ExecRaised | Exit(code: int)

  /** What the agent's caller gets back. */
  datatype SslNginxResponse = SslNginxResponse(status: int, response: string)

  /** The connection parameters `updateNginxConfig` receives. */
  datatype RemoteRequest = RemoteRequest(domain: string, host: string, username: string,
                                         privateKey: string, passphrase: string)

  /** The remote side: whether `connect` succeeds, and how the command at each
      position of the fixed command order ends if it is run. */
  datatype RemoteReplies = RemoteReplies(connects: bool, exec: nat -> ExecReply)

  /** A template literal prints an unset environment value as "undefined". */
  function EnvText(v: Option<string>): string {
    match v
    case Some(s) => s
    case None => "undefined"
  }

  // ---------------------------------------------------------------- commands

  function CertbotCommand(domain: string, email: Option<string>): string {
    "certbot --nginx -d " + domain + " --agree-tos --non-interactive --email " + EnvText(email)
  }

  const ReloadCommand: string := "systemctl reload nginx"
  const TestCommand: string := "nginx -t"
  const SitesAvailable: string := "/etc/nginx/sites-available/"
  const SitesEnabled: string := "/etc/nginx/sites-enabled/"
  const DefaultFilePath: string := "/etc/nginx/sites-available/default"

  function WriteDefaultCommand(domain: string): string {
    "echo \"" + GenerateNginxDefault(domain) + "\" > " + DefaultFilePath
  }

  function WriteSiteCommand(domain: string): string {
    "echo \"" + GenerateNginxConfig(domain) + "\" > " + SitesAvailable + domain
  }

  function LinkCommand(domain: string): string {
    "ln -s " + SitesAvailable + domain + " " + SitesEnabled + domain
  }

  /** Every command the agent can run, in the order it runs them: certbot and
      its reload, the default file, the site file, its symlink, the syntax
      test and the final reload. */
  function Commands(domain: string, email: Option<string>): (cmds: seq<string>)
    ensures |cmds| == 7
  {
    [CertbotCommand(domain, email), ReloadCommand, WriteDefaultCommand(domain), WriteSiteCommand(domain),
     LinkCommand(domain), TestCommand, ReloadCommand]
  }

  // ---------------------------------------------------------------- certbot

  const CatchSslResponse: SslNginxResponse := SslNginxResponse(400, "Catch Error generating SSL certificate")

  /** `generateSslCertificate`: run certbot; a non-zero exit gives 400 and no
      reload; otherwise reload nginx (its exit code is ignored) and give 200.
      An exception from either command gives 400. */
  function GenerateSslCertificate(domain: string, email: Option<string>, certbot: ExecReply, reload: ExecReply)
    : (r: Step<SslNginxResponse, Call>)
    ensures r.value.status in {200, 400}
    ensures r.value.status == 200 <==> certbot == Exit(0) && reload.Exit?
    ensures certbot != Exit(0) ==> r.calls == [Exec(CertbotCommand(domain, email))]
    ensures certbot == Exit(0) ==> r.calls == [Exec(CertbotCommand(domain, email)), Exec(ReloadCommand)]
  {
    var certbotCall := [Exec(CertbotCommand(domain, email))];
    match certbot
    case ExecRaised => Step(CatchSslResponse, certbotCall)
    case Exit(code) =>
      if code != 0 then
        Step(SslNginxResponse(400, "Certbot failed to generate SSL certificate for domain " + domain), certbotCall)
      else
        match reload
        case ExecRaised => Step(CatchSslResponse, certbotCall + [Exec(ReloadCommand)])
        case Exit(_) =>
          Step(SslNginxResponse(200, "NGINX reloaded with new SSL certificate."), certbotCall + [Exec(ReloadCommand)])
  }

  // ---------------------------------------------------------------- the session

  const CatchResponse: SslNginxResponse := SslNginxResponse(400, "Catch error updating NGINX config:")
  const SslFailedResponse: SslNginxResponse := SslNginxResponse(400, "Error generating SSH Keys")
  const ShutDownResponse: SslNginxResponse := SslNginxResponse(200, "SSH Connection Shut Down")

  /** One command of the session: what it runs, whether a non-zero exit code
      aborts the session, and what the session answers when the command raises
      or fails. */
  datatype RemoteStep = RemoteStep(command: string, checksExit: bool,
                                   onRaise: SslNginxResponse, onFailure: SslNginxResponse)

  /** The steps of `updateNginxConfig`. The first two are `generateSslCertificate`,
      whose own failures (a raise included) surface as "Error generating SSH
      Keys"; neither reload checks its exit code. */
  function Steps(domain: string, email: Option<string>): (steps: seq<RemoteStep>)
    ensures |steps| == 7
    ensures forall i :: 0 <= i < 7 ==> steps[i].command == Commands(domain, email)[i]
    ensures forall i :: 0 <= i < 7 ==> steps[i].onRaise.status == 400 && steps[i].onFailure.status == 400
  {
    var c := Commands(domain, email);
    [RemoteStep(c[0], true, SslFailedResponse, SslFailedResponse),
     RemoteStep(c[1], false, SslFailedResponse, SslFailedResponse),
     RemoteStep(c[2], true, CatchResponse,
                SslNginxResponse(400, "Failed writing NGINX Default configuration to " + DefaultFilePath)),
     RemoteStep(c[3], true, CatchResponse,
                SslNginxResponse(400, "Failed writing NGINX Sites Available configuration to "
                                      + SitesAvailable + domain)),
     RemoteStep(c[4], true, CatchResponse,
                SslNginxResponse(400, "Failed creating symlink for " + domain + " in Sites Enabled")),
     RemoteStep(c[5], true, CatchResponse, SslNginxResponse(400, "NGINX config test failed")),
     RemoteStep(c[6], false, CatchResponse, CatchResponse)]
  }

  /** Whether a step's outcome aborts the session. */
  predicate Fails(step: RemoteStep, reply: ExecReply) {
    reply.ExecRaised? || (step.checksExit && reply.code != 0)
  }

  /** Run `steps[i..]` in order, stopping at the first that fails; `None`
      when every step ran without failing. */
  function RunSteps(steps: seq<RemoteStep>, exec: nat -> ExecReply, i: nat)
    : (r: Step<Option<SslNginxResponse>, Call>)
    requires i <= |steps|
    ensures |r.calls| <= |steps| - i
    ensures forall k :: 0 <= k < |r.calls| ==> r.calls[k] == Exec(steps[i + k].command)
    ensures forall j :: i <= j < i + |r.calls| - 1 ==> !Fails(steps[j], exec(j))
    ensures r.value.None? <==> forall j :: i <= j < |steps| ==> !Fails(steps[j], exec(j))
    ensures r.value.None? ==> |r.calls| == |steps| - i
    ensures r.value.Some? ==>
              |r.calls| >= 1 && Fails(steps[i + |r.calls| - 1], exec(i + |r.calls| - 1))
              && r.value.value in {steps[i + |r.calls| - 1].onRaise, steps[i + |r.calls| - 1].onFailure}
    decreases |steps| - i
  {
    if i == |steps| then Step(None, [])
    else
      var call := [Exec(steps[i].command)];
      match exec(i)
      case ExecRaised => Step(Some(steps[i].onRaise), call)
      case Exit(code) =>
        if steps[i].checksExit && code != 0 then Step(Some(steps[i].onFailure), call)
        else
          var rest := RunSteps(steps, exec, i + 1);
          Step(rest.value, call + rest.calls)
  }

  /** The `try`/`catch` of `updateNginxConfig` without its `finally`: the
      response it returns (`None` when it falls through after the final
      reload) and the remote commands it runs. A failed `connect` lands in the
      `catch` before any command. */
  function SessionBody(domain: string, email: Option<string>, remote: RemoteReplies)
    : (r: Step<Option<SslNginxResponse>, Call>)
  {
    if !remote.connects then Step(Some(CatchResponse), [])
    else RunSteps(Steps(domain, email), remote.exec, 0)
  }

  predicate AllSucceed(domain: string, email: Option<string>, exec: nat -> ExecReply) {
    forall j :: 0 <= j < 7 ==> !Fails(Steps(domain, email)[j], exec(j))
  }

  /** The session log around a body: connect first, dispose last. */
  function Session(req: RemoteRequest, body: seq<Call>): seq<Call> {
    [Connect(req.host, req.username)] + body + [Dispose]
  }

  /** `updateNginxConfig` as written: the `return` inside `finally` replaces
      whatever the `try` or `catch` returned, so the answer is always 200. */
  function UpdateNginxConfigAsWritten(req: RemoteRequest, email: Option<string>, remote: RemoteReplies)
    : (r: Step<SslNginxResponse, Call>)
    ensures r.value == ShutDownResponse
    ensures r.calls == Session(req, SessionBody(req.domain, email, remote).calls)
  {
    var body := SessionBody(req.domain, email, remote);
    Step(ShutDownResponse, Session(req, body.calls))
  }

  /** `updateNginxConfig` as evidently intended: the `finally` only closes the
      session, the failure responses of the `try` and `catch` reach the
      caller, and a run that falls through reports the shut-down response.
      It reports 200 exactly when it connected and no step failed. */
  function UpdateNginxConfig(req: RemoteRequest, email: Option<string>, remote: RemoteReplies)
    : (r: Step<SslNginxResponse, Call>)
    ensures r.value.status in {200, 400}
    ensures r.value.status == 200 <==> remote.connects && AllSucceed(req.domain, email, remote.exec)
    ensures r.calls == Session(req, SessionBody(req.domain, email, remote).calls)
  {
    var body := SessionBody(req.domain, email, remote);
    Step(match body.value case Some(resp) => resp case None => ShutDownResponse, Session(req, body.calls))
  }

  /** The `finally` override: the as-written agent reports success even when
      certbot exits with 1, whereas the intended agent reports the failure. */
  lemma FinallyOverridesFailure(req: RemoteRequest, email: Option<string>, exec: nat -> ExecReply)
    requires exec(0) == Exit(1)
    ensures UpdateNginxConfigAsWritten(req, email, RemoteReplies(true, exec)).value.status == 200
    ensures UpdateNginxConfig(req, email, RemoteReplies(true, exec)).value == SslFailedResponse
  {
    assert Fails(Steps(req.domain, email)[0], exec(0));
  }

  /** The commands a session log ran: everything between connect and dispose. */
  function Executed(calls: seq<Call>): seq<Call>
    requires |calls| >= 2
  {
    calls[1..|calls| - 1]
  }

  /** Both variants open the session once and dispose of it exactly once, as
      the very last action, whatever the remote side does. */
  lemma {:induction false} DisposeExactlyOnce(req: RemoteRequest, email: Option<string>, remote: RemoteReplies)
    ensures var calls := UpdateNginxConfig(req, email, remote).calls;
            && calls == UpdateNginxConfigAsWritten(req, email, remote).calls
            && |calls| >= 2
            && calls[0] == Connect(req.host, req.username)
            && calls[|calls| - 1] == Dispose
            && Dispose !in calls[..|calls| - 1]
            && Executed(calls) == SessionBody(req.domain, email, remote).calls
  {
    var body := SessionBody(req.domain, email, remote).calls;
    var calls := Session(req, body);
    BodyIsCommands(req.domain, email, remote);
    assert calls[..|calls| - 1] == [Connect(req.host, req.username)] + body;
    assert Dispose !in body;
  }

  lemma BodyIsCommands(domain: string, email: Option<string>, remote: RemoteReplies)
    ensures forall c :: c in SessionBody(domain, email, remote).calls ==> c.Exec?
  {
    var body := SessionBody(domain, email, remote).calls;
    assert forall k :: 0 <= k < |body| ==> body[k].Exec?;
  }

  /** The commands run are those of the fixed order up to the first failing
      one and nothing after it; all seven run when none fails. */
  lemma {:induction false} CommandsRunInOrder(domain: string, email: Option<string>, remote: RemoteReplies)
    requires remote.connects
    ensures var ran := SessionBody(domain, email, remote).calls;
            && |ran| <= 7
            && (forall k :: 0 <= k < |ran| ==> ran[k] == Exec(Commands(domain, email)[k]))
            && (forall k :: 0 <= k < |ran| - 1 ==> !Fails(Steps(domain, email)[k], remote.exec(k)))
            && (AllSucceed(domain, email, remote.exec) ==> |ran| == 7)
            && (!AllSucceed(domain, email, remote.exec) ==>
                  |ran| >= 1 && Fails(Steps(domain, email)[|ran| - 1], remote.exec(|ran| - 1)))
  {
  }

  /** The first two steps are `generateSslCertificate`: the session stops
      there, reporting "Error generating SSH Keys" after the same commands,
      exactly when that function reports something other than 200. */
  lemma SslStepsMatchGenerateSslCertificate(domain: string, email: Option<string>, exec: nat -> ExecReply)
    ensures var ssl := GenerateSslCertificate(domain, email, exec(0), exec(1));
            var body := SessionBody(domain, email, RemoteReplies(true, exec));
            (ssl.value.status != 200 <==> body.value == Some(SslFailedResponse) && |body.calls| <= 2)
            && (ssl.value.status != 200 ==> body.calls == ssl.calls)
  {
    var steps := Steps(domain, email);
    var body := SessionBody(domain, email, RemoteReplies(true, exec));
    if |body.calls| <= 2 && body.value.Some? {
      assert Fails(steps[|body.calls| - 1], exec(|body.calls| - 1));
    }
    if !Fails(steps[0], exec(0)) && !Fails(steps[1], exec(1)) {
      assert |body.calls| >= 3 || body.value.None?;
    }
  }

  // ---------------------------------------------------------------- configuration files

  const ProxyPass: string := "proxy_pass http://localhost:3000;"

  function ServerName(domain: string): string {
    "server_name " + domain + ";"
  }

  function CertPath(domain: string, file: string): string {
    "/etc/letsencrypt/live/" + domain + "/" + file
  }

  /** `generateNginxDefault`: the default site, redirecting HTTP to HTTPS and
      serving HTTPS with the certificate issued for `domain`. */
  function GenerateNginxDefault(domain: string): string {
    DefaultLayout([DefaultText0, DefaultText1, DefaultText2, DefaultText3, DefaultText4, DefaultText5,
                   DefaultText6], domain)
  }

  /** The default file with its literal text `t` between the interpolations. */
  function DefaultLayout(t: seq<string>, domain: string): string
    requires |t| == 7
  {
    t[0]
    + ServerName(domain)
    + t[1]
    + ProxyPass
    + t[2]
    + ServerName(domain)
    + t[3]
    + CertPath(domain, "fullchain.pem")
    + t[4]
    + CertPath(domain, "privkey.pem")
    + t[5]
    + ProxyPass
    + t[6]
  }

  /** `generateNginxConfig`: the per-domain site, proxying both servers to the
      local application. */
  function GenerateNginxConfig(domain: string): string {
    SiteLayout([SiteText0, SiteText1, SiteText2, SiteText3, SiteText4], domain)
  }

  /** The per-domain file with its literal text `t` between the interpolations. */
  function SiteLayout(t: seq<string>, domain: string): string
    requires |t| == 5
  {
    t[0]
    + ServerName(domain)
    + t[1]
    + ProxyPass
    + t[2]
    + ServerName(domain)
    + t[3]
    + ProxyPass
    + t[4]
  }


  // The literal text between the interpolations of the two templates.

  const DefaultText0: string :=
@"server {
    # Redirect HTTP to HTTPS
    listen 80 default_server;
    listen [::]:80 default_server;

    root /var/www/html;

    index index.html index.htm index.nginx-debian.html;

    "
  const DefaultText1: string :=
@"  # Replace with your domain

    # Try to serve static files, if not, proxy to the backend
    location / {
      try_files $uri $uri/ @proxy;
    }

    # Define a named location for proxying
    location @proxy {
      "
  const DefaultText2: string :=
@"
    }

    # Redirect all HTTP traffic to HTTPS
    return 301 https://$server_name$request_uri;
  }

  server {
      # SSL Configuration for HTTPS
      listen 443 ssl;
      "
  const DefaultText3: string :=
@"  # Replace with your domain

      ssl_certificate "
  const DefaultText4: string :=
@";  # Path to your SSL certificate
      ssl_certificate_key "
  const DefaultText5: string :=
@";  # Path to your SSL private key
      # ssl_protocols TLSv1.2 TLSv1.3;

      location / {
        "
  const DefaultText6: string :=
@"
      }
  }"

  const SiteText0: string :=
@"server {
    # Redirect HTTP to HTTPS
    listen 80;
    "
  const SiteText1: string :=
@"

    location / {
      "
  const SiteText2: string :=
@"
    }

    # Redirect all HTTP traffic to HTTPS
    return 301 https://$server_name$request_uri;
  }

  server {
      # SSL Configuration for HTTPS
      listen 443 ssl;
      "
  const SiteText3: string :=
@"

      location / {
        "
  const SiteText4: string :=
@"
      }            
  }"

  // ---------------------------------------------------------------- template properties

  /** Both files name the domain in `server_name` and proxy to the local
      application on port 3000; the default file takes its certificate and
      key from the domain's Let's Encrypt directory. */
  lemma DefaultConfigMentions(domain: string)
    ensures IsInfix(ServerName(domain), GenerateNginxDefault(domain))
    ensures IsInfix(ProxyPass, GenerateNginxDefault(domain))
    ensures IsInfix(CertPath(domain, "fullchain.pem"), GenerateNginxDefault(domain))
    ensures IsInfix(CertPath(domain, "privkey.pem"), GenerateNginxDefault(domain))
  {
    DefaultLayoutMentions([DefaultText0, DefaultText1, DefaultText2, DefaultText3, DefaultText4,
                           DefaultText5, DefaultText6], domain);
  }

  lemma SiteConfigMentions(domain: string)
    ensures IsInfix(ServerName(domain), GenerateNginxConfig(domain))
    ensures IsInfix(ProxyPass, GenerateNginxConfig(domain))
  {
    SiteLayoutMentions([SiteText0, SiteText1, SiteText2, SiteText3, SiteText4], domain);
  }

  lemma DefaultLayoutMentions(t: seq<string>, domain: string)
    requires |t| == 7
    ensures IsInfix(ServerName(domain), DefaultLayout(t, domain))
    ensures IsInfix(ProxyPass, DefaultLayout(t, domain))
    ensures IsInfix(CertPath(domain, "fullchain.pem"), DefaultLayout(t, domain))
    ensures IsInfix(CertPath(domain, "privkey.pem"), DefaultLayout(t, domain))
  {
    var sn, fc, pk := ServerName(domain), CertPath(domain, "fullchain.pem"), CertPath(domain, "privkey.pem");
    var p1 := t[0] + sn;
    var p3 := p1 + t[1] + ProxyPass;
    var p8 := p3 + t[2] + sn + t[3] + fc;
    var p10 := p8 + t[4] + pk;
    InfixOfSuffix(t[0], sn);
    InfixOfSuffix(p1 + t[1], ProxyPass);
    InfixOfSuffix(p3 + t[2] + sn + t[3], fc);
    InfixOfSuffix(p8 + t[4], pk);
    // Each needle found in a prefix stays a substring as the rest is appended.
    InfixExtends(sn, p1, t[1]);
    InfixExtends(sn, p1 + t[1], ProxyPass);
    ExtendsFromThird(sn, t, domain);
    ExtendsFromThird(ProxyPass, t, domain);
    ExtendsFromTenth(sn, t, domain);
    ExtendsFromTenth(ProxyPass, t, domain);
    InfixExtends(fc, p8, t[4]);
    InfixExtends(fc, p8 + t[4], pk);
    ExtendsFromTenth(fc, t, domain);
    ExtendsFromTenth(pk, t, domain);
  }

  lemma ExtendsFromThird(needle: string, t: seq<string>, domain: string)
    requires |t| == 7
    requires IsInfix(needle, t[0] + ServerName(domain) + t[1] + ProxyPass)
    ensures IsInfix(needle, t[0] + ServerName(domain) + t[1] + ProxyPass + t[2] + ServerName(domain) + t[3]
                            + CertPath(domain, "fullchain.pem") + t[4] + CertPath(domain, "privkey.pem"))
  {
    var sn, fc, pk := ServerName(domain), CertPath(domain, "fullchain.pem"), CertPath(domain, "privkey.pem");
    var p3 := t[0] + sn + t[1] + ProxyPass;
    InfixExtends(needle, p3, t[2]);
    InfixExtends(needle, p3 + t[2], sn);
    InfixExtends(needle, p3 + t[2] + sn, t[3]);
    InfixExtends(needle, p3 + t[2] + sn + t[3], fc);
    InfixExtends(needle, p3 + t[2] + sn + t[3] + fc, t[4]);
    InfixExtends(needle, p3 + t[2] + sn + t[3] + fc + t[4], pk);
  }

  lemma ExtendsFromTenth(needle: string, t: seq<string>, domain: string)
    requires |t| == 7
    requires IsInfix(needle, t[0] + ServerName(domain) + t[1] + ProxyPass + t[2] + ServerName(domain) + t[3]
                             + CertPath(domain, "fullchain.pem") + t[4] + CertPath(domain, "privkey.pem"))
    ensures IsInfix(needle, DefaultLayout(t, domain))
  {
    var p10 := t[0] + ServerName(domain) + t[1] + ProxyPass + t[2] + ServerName(domain) + t[3]
               + CertPath(domain, "fullchain.pem") + t[4] + CertPath(domain, "privkey.pem");
    InfixExtends(needle, p10, t[5]);
    InfixExtends(needle, p10 + t[5], ProxyPass);
    InfixExtends(needle, p10 + t[5] + ProxyPass, t[6]);
  }

  lemma SiteLayoutMentions(t: seq<string>, domain: string)
    requires |t| == 5
    ensures IsInfix(ServerName(domain), SiteLayout(t, domain))
    ensures IsInfix(ProxyPass, SiteLayout(t, domain))
  {
    var sn := ServerName(domain);
    var w1 := t[0] + sn;
    var w3 := w1 + t[1] + ProxyPass;
    var rest := t[2] + sn + t[3] + ProxyPass + t[4];
    InfixOfSuffix(t[0], sn);
    InfixExtends(sn, w1, t[1] + ProxyPass);
    assert w1 + (t[1] + ProxyPass) == w3;
    InfixOfSuffix(w1 + t[1], ProxyPass);
    InfixExtends(sn, w3, rest);
    InfixExtends(ProxyPass, w3, rest);
    assert SiteLayout(t, domain) == w3 + rest;
  }
}

=== FILE: profile.dfy ===
/** Construction of the droplet creation request in `createDroplet`
    (src/create-droplet.ts): the size tier, the SSH key list parsed from the
    environment and the fixed fields of the request body. */
module Profile {
  import opened Wrappers
  import opened Api
  import opened Text

  const Region: string := "nyc1"
  const DevelopmentSize: string := "c2-4vcpu-8gb-intel"

  /** The four speed tiers the command line offers. */
  const Tiers: seq<string> := ["Slow", "Medium", "Fast", "Blazing"]

  /** `getDropletSize`: `ENV === "development"` overrides everything; otherwise
      the tier maps to a compute-optimised size, anything unrecognised to the
      smallest one. */
  function GetDropletSize(env: Option<string>, speed: string): (slug: string)
    ensures env == Some("development") ==> slug == DevelopmentSize
    ensures env != Some("development") && speed !in Tiers ==> slug == "c-8-intel"
    ensures slug in {DevelopmentSize, "c-8-intel", "c-16-intel", "c-32-intel", "c-60-intel"}
  {
    if Truthy(env) && env.value == "development" then DevelopmentSize
    else
      match speed
      case "Slow" => "c-8-intel"
      case "Medium" => "c-16-intel"
      case "Fast" => "c-32-intel"
      case "Blazing" => "c-60-intel"
      case _ => "c-8-intel"
  }

  /** The tier a size slug stands for (the reverse reading of the price table). */
  function TierOf(slug: string): Option<string> {
    match slug
    case "c-8-intel" => Some("Slow")
    case "c-16-intel" => Some("Medium")
    case "c-32-intel" => Some("Fast")
    case "c-60-intel" => Some("Blazing")
    case _ => None
  }

  /** Outside development every tier gets a size of its own: reading the
      size back gives the tier. */
  lemma {:induction false} SizeDeterminesTier(env: Option<string>, speed: string)
    requires env != Some("development")
    requires speed in Tiers
    ensures TierOf(GetDropletSize(env, speed)) == Some(speed)
  {
    assert speed == "Slow" || speed == "Medium" || speed == "Fast" || speed == "Blazing";
  }

  /** `DIGITAL_OCEAN_SSH_KEYS` as a key list: when the variable is a string,
      its comma-separated pieces, each trimmed; otherwise no key list at all. */
  function ParseSshKeys(env: Option<string>): (keys: Option<seq<string>>)
    ensures keys.Some? <==> env.Some?
    ensures keys.Some? ==> |keys.value| == Occurrences(env.value, ',') + 1
    ensures keys.Some? ==>
              forall i :: 0 <= i < |keys.value| ==>
                keys.value[i] == Trim(Split(env.value, ',')[i])
                && ',' !in keys.value[i] && EdgeClean(keys.value[i])
  {
    match env
    case None => None
    case Some(s) =>
      Some(TrimAll(Split(s, ',')))
  }

  /** `parts.map(k => k.trim())`. */
  function TrimAll(parts: seq<string>): (r: seq<string>)
    ensures |r| == |parts|
    ensures forall i :: 0 <= i < |r| ==> r[i] == Trim(parts[i])
  {
    if |parts| == 0 then [] else [Trim(parts[0])] + TrimAll(parts[1..])
  }

  /** Keys written as a comma-separated list (without commas or surrounding
      spaces in any key) parse back to the same list. */
  lemma ParseSshKeysOfJoin(keys: seq<string>)
    requires |keys| >= 1
    requires forall i :: 0 <= i < |keys| ==> ',' !in keys[i] && EdgeClean(keys[i])
    ensures ParseSshKeys(Some(Join(keys, ','))) == Some(keys)
  {
    var s := Join(keys, ',');
    SplitJoin(keys, ',');
    assert Split(s, ',') == keys;
    ParseOfCleanPieces(s, keys);
  }

  lemma ParseOfCleanPieces(s: string, keys: seq<string>)
    requires Split(s, ',') == keys
    requires forall i :: 0 <= i < |keys| ==> EdgeClean(keys[i])
    ensures ParseSshKeys(Some(s)) == Some(keys)
  {
    TrimAllClean(keys);
  }

  lemma {:induction false} TrimAllClean(keys: seq<string>)
    requires forall i :: 0 <= i < |keys| ==> EdgeClean(keys[i])
    ensures TrimAll(keys) == keys
  {
    if |keys| > 0 {
      TrimOfClean(keys[0]);
      TrimAllClean(keys[1..]);
      assert keys == [keys[0]] + keys[1..];
    }
  }

  lemma TrimOfClean(k: string)
    requires EdgeClean(k)
    ensures Trim(k) == k
  {
    assert [] + k + [] == k;
    TrimOfWrapped([], k, []);
  }

  /** The arguments of `createDroplet` that shape the request. */
  datatype CreateArgs = CreateArgs(dropletName: string, snapshotId: string, subdomain: string,
                                   speed: string, tags: Option<seq<string>>)

  /** The request body of `createDroplet`. `tags` and `ssh_keys` are present
      whenever they are defined (an array is always truthy, even an empty one). */
  function BuildDropletConfig(args: CreateArgs, env: Option<string>, sshKeysEnv: Option<string>)
    : (c: DropletConfig)
    ensures c.name == args.dropletName && c.image == args.snapshotId && c.region == Region
    ensures c.size == GetDropletSize(env, args.speed)
    ensures !c.backups && c.ipv6 && c.monitoring
    ensures c.tags == args.tags
    ensures c.sshKeys.Some? <==> sshKeysEnv.Some?
    ensures c.sshKeys == ParseSshKeys(sshKeysEnv)
  {
    DropletConfig(args.dropletName, Region, GetDropletSize(env, args.speed), args.snapshotId,
                  false, true, true, args.tags, ParseSshKeys(sshKeysEnv))
  }

  /** Keys configured as a comma-separated list reach the request unchanged. */
  lemma ConfigCarriesKeys(args: CreateArgs, env: Option<string>, keys: seq<string>)
    requires |keys| >= 1
    requires forall i :: 0 <= i < |keys| ==> ',' !in keys[i] && EdgeClean(keys[i])
    ensures BuildDropletConfig(args, env, Some(Join(keys, ','))).sshKeys == Some(keys)
  {
    ParseSshKeysOfJoin(keys);
  }
}

=== FILE: provision.dfy ===
/** The provisioning workflow of src/create-droplet.ts: wait for a new droplet
    to become active, attach the firewall and wait for the network, then create
    the droplet, give it a subdomain and hand it to the remote configuration
    agent. Every stage either succeeds or the whole outcome is `undefined`. */
module Provision {
  import opened Wrappers
  import opened Api
  import opened Text
  import opened Resources
  import opened Profile
  import Subdomain
  import NginxSsl

  /** The single pause of the status poll, taken after the first poll that
      finds the droplet still deploying. */
  const CheckMsThreshold: int := 5000

  // ---------------------------------------------------------------- status poll

  predicate IsActive(poll: Reply<Droplet>) {
    poll.Response? && poll.body.status == "active"
  }

  /** A poll that ends the `while (true)` loop: the droplet is active, or the
      unguarded request raised. */
  predicate Settles(poll: Reply<Droplet>) {
    poll.Raised? || IsActive(poll)
  }

  /** The `while (true)` status poll from poll `i` on, over the finite trace
      `polls` of the droplet requests' replies. Only the very first
      unsuccessful poll is followed by a pause; later ones re-poll at once. */
  function AwaitActive(dropletId: int, polls: seq<Reply<Droplet>>, i: nat)
    : (r: Step<Completion<()>, Call>)
    requires i <= |polls|
    ensures r.value.Returned? <==>
              exists k :: i <= k < |polls| && IsActive(polls[k]) && forall j :: i <= j < k ==> !Settles(polls[j])
    ensures r.value.Threw? <==>
              exists k :: i <= k < |polls| && polls[k].Raised? && forall j :: i <= j < k ==> !Settles(polls[j])
    ensures r.value.StillWaiting? <==> forall k :: i <= k < |polls| ==> !Settles(polls[k])
    ensures i > 0 ==> forall c :: c in r.calls ==> c == GetDroplet(dropletId)
    ensures i == 0 ==> forall k :: 0 <= k < |r.calls| && k != 1 ==> r.calls[k] == GetDroplet(dropletId)
    ensures i == 0 && |r.calls| >= 2 ==> r.calls[1] == Pause(CheckMsThreshold)
    decreases |polls| - i
  {
    if i == |polls| then Step(StillWaiting, [])
    else
      match polls[i]
      case Raised => Step(Threw, [GetDroplet(dropletId)])
      case Response(_, droplet) =>
        if droplet.status == "active" then Step(Returned(()), [GetDroplet(dropletId)])
        else
          var rest := AwaitActive(dropletId, polls, i + 1);
          var pause := if i == 0 then [Pause(CheckMsThreshold)] else [];
          var calls := [GetDroplet(dropletId)] + pause + rest.calls;
          assert !Settles(polls[i]);
          assert forall k :: 0 <= k < |rest.calls| ==> rest.calls[k] in rest.calls;
          assert forall k :: |pause| + 1 <= k < |calls| ==> calls[k] == rest.calls[k - |pause| - 1];
          assert forall c :: c in calls ==> c == GetDroplet(dropletId) || c in pause || c in rest.calls;
          Step(rest.value, calls)
  }

  /** The status poll sleeps at most once: whatever the trace, no call other
      than the second is a pause. */
  lemma {:induction false} SleepsOnlyOnce(dropletId: int, polls: seq<Reply<Droplet>>)
    ensures forall k :: 0 <= k < |AwaitActive(dropletId, polls, 0).calls| && k != 1 ==>
              !AwaitActive(dropletId, polls, 0).calls[k].Pause?
  {
    var calls := AwaitActive(dropletId, polls, 0).calls;
    forall k | 0 <= k < |calls| && k != 1
      ensures !calls[k].Pause?
    {
      assert calls[k] == GetDroplet(dropletId);
    }
  }

  /** A trace that reports "deploying" one or more times and then "active"
      issues one request per poll plus exactly one pause, right after the
      first poll. */
  lemma {:induction false} DeployingThenActive(dropletId: int, polls: seq<Reply<Droplet>>)
    requires |polls| >= 2
    requires IsActive(polls[|polls| - 1])
    requires forall j :: 0 <= j < |polls| - 1 ==> polls[j].Response? && !IsActive(polls[j])
    ensures AwaitActive(dropletId, polls, 0).value.Returned?
    ensures |AwaitActive(dropletId, polls, 0).calls| == |polls| + 1
    ensures AwaitActive(dropletId, polls, 0).calls[1] == Pause(CheckMsThreshold)
  {
    AwaitActiveLength(dropletId, polls, 1);
    var r := AwaitActive(dropletId, polls, 0);
    assert r.calls == [GetDroplet(dropletId), Pause(CheckMsThreshold)] + AwaitActive(dropletId, polls, 1).calls;
    var last := |polls| - 1;
    assert forall j :: 0 <= j < last ==> !Settles(polls[j]);
    assert IsActive(polls[last]) && forall j :: 0 <= j < last ==> !Settles(polls[j]);
  }

  lemma {:induction false} AwaitActiveLength(dropletId: int, polls: seq<Reply<Droplet>>, i: nat)
    requires 1 <= i < |polls|
    requires IsActive(polls[|polls| - 1])
    requires forall j :: i <= j < |polls| - 1 ==> polls[j].Response? && !IsActive(polls[j])
    ensures |AwaitActive(dropletId, polls, i).calls| == |polls| - i
    decreases |polls| - i
  {
    if i < |polls| - 1 {
      AwaitActiveLength(dropletId, polls, i + 1);
    }
  }

  // ---------------------------------------------------------------- readiness after creation

  /** The replies `checkDropletStatusOnInit` sees: the status trace, the
      firewall listing and attachment, the address lookup and probes of the
      network wait, and the final address lookup. */
  datatype InitReplies = InitReplies(
    polls: seq<Reply<Droplet>>,
    firewalls: ListReply<Firewall>,
    attach: Reply<string>,
    probeAddress: Reply<Droplet>,
    probe: nat -> ProbeReply,
    address: Reply<Droplet>)

  /** The firewall stage on its own: look the firewall up by trimmed name,
      attach it, then wait for port 80 with the default budget of 30 probes.
      It never deletes the droplet when a step fails. */
  function FirewallStage(dropletId: int, firewallName: Option<string>, w: InitReplies)
    : (r: Step<bool, Call>)
    ensures r.value <==>
              && GetFirewallID(w.firewalls, firewallName).Some?
              && AddFirewallToDroplet(dropletId, GetFirewallID(w.firewalls, firewallName).value.id, w.attach).value.Some?
              && WaitForNetworkAccess(dropletId, w.probeAddress, DefaultPort, DefaultMaxAttempts, w.probe).value
    ensures |r.calls| >= 1 && r.calls[0] == ListFirewalls
  {
    var calls := [ListFirewalls];
    match GetFirewallID(w.firewalls, firewallName)
    case None => Step(false, calls)
    case Some(fw) =>
      var attached := AddFirewallToDroplet(dropletId, fw.id, w.attach);
      if attached.value.None? then Step(false, calls + attached.calls)
      else
        var network := WaitForNetworkAccess(dropletId, w.probeAddress, DefaultPort, DefaultMaxAttempts, w.probe);
        var all := calls + attached.calls + network.calls;
        assert forall c :: c in all ==> c in calls || c in attached.calls || c in network.calls;
        Step(network.value, all)
  }

  /** `checkDropletStatusOnInit`: once the droplet is active, run the firewall
      stage when a firewall name is configured, then answer the droplet's
      public address if it is truthy, `undefined` otherwise. An exception of
      the status request escapes to the caller. */
  function CheckDropletStatusOnInit(dropletId: int, firewallName: Option<string>, w: InitReplies)
    : (r: Step<Completion<Option<string>>, Call>)
    ensures r.value.Returned? <==> AwaitActive(dropletId, w.polls, 0).value.Returned?
    ensures r.value.Threw? <==> AwaitActive(dropletId, w.polls, 0).value.Threw?
    ensures r.value.Returned? && r.value.value.Some? <==>
              && AwaitActive(dropletId, w.polls, 0).value.Returned?
              && (Truthy(firewallName) ==> FirewallStage(dropletId, firewallName, w).value)
              && Truthy(GetDropletIP(w.address))
    ensures r.value.Returned? && r.value.value.Some? ==>
              r.value.value == GetDropletIP(w.address) && r.value.value.value != ""
  {
    var poll := AwaitActive(dropletId, w.polls, 0);
    match poll.value
    case Threw => Step(Threw, poll.calls)
    case StillWaiting => Step(StillWaiting, poll.calls)
    case Returned(_) =>
      var stage := if Truthy(firewallName) then FirewallStage(dropletId, firewallName, w) else Step(true, []);
      var calls := poll.calls + stage.calls;
      if !stage.value then Step(Returned(None), calls)
      else
        var ip := GetDropletIP(w.address);
        if Truthy(ip) then Step(Returned(ip), calls + [GetDroplet(dropletId)])
        else Step(Returned(None), calls + [GetDroplet(dropletId)])
  }

  /** The requests the readiness wait may issue. */
  predicate InitCall(c: Call) {
    c.GetDroplet? || c.Pause? || c.ListFirewalls? || c.AttachFirewall? || c.ProbeHttp?
  }

  lemma FirewallStageCallKinds(dropletId: int, firewallName: Option<string>, w: InitReplies)
    ensures forall c :: c in FirewallStage(dropletId, firewallName, w).calls ==> InitCall(c)
  {
    var r := FirewallStage(dropletId, firewallName, w);
    var fw := GetFirewallID(w.firewalls, firewallName);
    if fw.Some? {
      var attached := AddFirewallToDroplet(dropletId, fw.value.id, w.attach);
      var network := WaitForNetworkAccess(dropletId, w.probeAddress, DefaultPort, DefaultMaxAttempts, w.probe);
      assert forall c :: c in attached.calls ==> InitCall(c);
      assert forall c :: c in network.calls ==> InitCall(c);
      assert r.calls == [ListFirewalls] + attached.calls || r.calls == [ListFirewalls] + attached.calls + network.calls;
    } else {
      assert r.calls == [ListFirewalls];
    }
  }

  /** The readiness wait never deletes (nor creates) a droplet, whatever
      fails; without a firewall name it only polls the droplet and pauses. */
  lemma InitNeverDeletes(dropletId: int, firewallName: Option<string>, w: InitReplies)
    ensures forall c :: c in CheckDropletStatusOnInit(dropletId, firewallName, w).calls ==> InitCall(c)
    ensures !Truthy(firewallName) ==>
              forall c :: c in CheckDropletStatusOnInit(dropletId, firewallName, w).calls ==> c.GetDroplet? || c.Pause?
  {
    var poll := AwaitActive(dropletId, w.polls, 0);
    assert forall k :: 0 <= k < |poll.calls| ==> poll.calls[k].GetDroplet? || poll.calls[k].Pause?;
    assert forall c :: c in poll.calls ==> c.GetDroplet? || c.Pause?;
    FirewallStageCallKinds(dropletId, firewallName, w);
  }

  // ---------------------------------------------------------------- createDroplet

  /** The environment values the workflow reads; `None` is an unset variable. */
  datatype Env = Env(
    stage: Option<string>,
    sshKeys: Option<string>,
    firewallId: Option<string>,
    domain: Option<string>,
    sslUser: Option<string>,
    sslKeyPath: Option<string>,
    sslPassphrase: Option<string>,
    signingEmail: Option<string>)

  /** The collaborators' replies: the creation request, the readiness replies,
      the DNS replies, the contents of the private key file if it exists, and
      the remote side of the SSH session. */
  datatype CreateReplies = CreateReplies(
    created: Reply<Droplet>,
    init: InitReplies,
    dns: Subdomain.DnsReplies,
    privateKey: Option<string>,
    remote: NginxSsl.RemoteReplies)

  /** A successful deployment: the droplet and its full domain name. */
  datatype Deployed = Deployed(server: Droplet, subdomain: string, domain: string)

  /** Which `updateNginxConfig` the workflow calls: the one in the source,
      whose `finally` always answers 200, or the corrected one. */
  datatype Agent = AsWritten | Corrected

  function RunAgent(agent: Agent, req: NginxSsl.RemoteRequest, email: Option<string>, remote: NginxSsl.RemoteReplies)
    : (r: Step<NginxSsl.SslNginxResponse, Call>)
    ensures forall c :: c in r.calls ==> c.Connect? || c.Exec? || c.Dispose?
    ensures agent == AsWritten ==> r.value.status == 200
    ensures agent == Corrected ==>
              (r.value.status == 200 <==> remote.connects && NginxSsl.AllSucceed(req.domain, email, remote.exec))
  {
    NginxSsl.BodyIsCommands(req.domain, email, remote);
    match agent
    case AsWritten => NginxSsl.UpdateNginxConfigAsWritten(req, email, remote)
    case Corrected => NginxSsl.UpdateNginxConfig(req, email, remote)
  }

  predicate SslConfigured(env: Env) {
    Truthy(env.sslUser) && Truthy(env.sslKeyPath) && Truthy(env.sslPassphrase)
  }

  function CompleteDomain(subdomain: string, domain: string): string {
    subdomain + "." + domain
  }

  /** The request the workflow hands to the agent for an addressed droplet. */
  function AgentRequest(args: CreateArgs, env: Env, w: CreateReplies, ip: string): NginxSsl.RemoteRequest
    requires Truthy(env.domain) && SslConfigured(env) && w.privateKey.Some?
  {
    NginxSsl.RemoteRequest(CompleteDomain(args.subdomain, env.domain.value), ip, env.sslUser.value,
                           w.privateKey.value, env.sslPassphrase.value)
  }

  /** The stages after the droplet is active and addressed: the subdomain,
      then the agent; `undefined` as soon as one of them declines. */
  function ConfigureAddressed(args: CreateArgs, env: Env, w: CreateReplies, agent: Agent, droplet: Droplet,
                              ip: string)
    : (r: Step<Completion<Option<Deployed>>, Call>)
    ensures !r.value.Threw?
    ensures r.value.Returned? && r.value.value.Some? <==>
              && Truthy(env.domain) && args.subdomain != "" && ip != ""
              && Subdomain.AddSubdomain(env.domain, args.subdomain, ip, w.dns).value == Returned(true)
              && SslConfigured(env) && w.privateKey.Some?
              && RunAgent(agent, AgentRequest(args, env, w, ip), env.signingEmail, w.remote).value.status == 200
    ensures r.value.Returned? && r.value.value.Some? ==>
              r.value.value.value == Deployed(droplet, args.subdomain, CompleteDomain(args.subdomain, env.domain.value))
  {
    if !(Truthy(env.domain) && args.subdomain != "" && ip != "") then Step(Returned(None), [])
    else
      var dns := Subdomain.AddSubdomain(env.domain, args.subdomain, ip, w.dns);
      match dns.value
      case Threw => Step(Returned(None), dns.calls)
      case StillWaiting => Step(StillWaiting, dns.calls)
      case Returned(added) =>
        if !added then Step(Returned(None), dns.calls)
        else if !SslConfigured(env) || w.privateKey.None? then Step(Returned(None), dns.calls)
        else
          var updated := RunAgent(agent, AgentRequest(args, env, w, ip), env.signingEmail, w.remote);
          var outcome := if updated.value.status != 200 then None
                         else Some(Deployed(droplet, args.subdomain, CompleteDomain(args.subdomain, env.domain.value)));
          Step(Returned(outcome), dns.calls + updated.calls)
  }

  /** `createDroplet` calling the given agent: one creation request, then the
      readiness wait, the subdomain and the agent; an exception anywhere is
      caught and gives `undefined`. */
  function CreateDropletWith(args: CreateArgs, env: Env, w: CreateReplies, agent: Agent)
    : (r: Step<Completion<Option<Deployed>>, Call>)
    ensures |r.calls| >= 1 && r.calls[0] == CreateDroplet(BuildDropletConfig(args, env.stage, env.sshKeys))
    ensures !r.value.Threw?
    ensures !(w.created.Response? && w.created.status == 202) ==>
              r.value == Returned(None) && |r.calls| == 1
    ensures r.value.Returned? && r.value.value.Some? <==>
              && w.created.Response? && w.created.status == 202
              && var init := CheckDropletStatusOnInit(w.created.body.id, env.firewallId, w.init).value;
                 && init.Returned? && Truthy(init.value)
                 && var rest := ConfigureAddressed(args, env, w, agent, w.created.body, init.value.value).value;
                    rest.Returned? && rest.value.Some?
    ensures r.value.Returned? && r.value.value.Some? ==>
              && w.created.Response? && w.created.status == 202
              && Truthy(env.domain) && args.subdomain != ""
              && SslConfigured(env) && w.privateKey.Some?
              && r.value.value.value.server == w.created.body
              && r.value.value.value.subdomain == args.subdomain
              && r.value.value.value.domain == CompleteDomain(args.subdomain, env.domain.value)
  {
    var create := [CreateDroplet(BuildDropletConfig(args, env.stage, env.sshKeys))];
    match w.created
    case Raised => Step(Returned(None), create)
    case Response(status, droplet) =>
      if status != 202 then Step(Returned(None), create)
      else
        var init := CheckDropletStatusOnInit(droplet.id, env.firewallId, w.init);
        match init.value
        case Threw => Step(Returned(None), create + init.calls)
        case StillWaiting => Step(StillWaiting, create + init.calls)
        case Returned(ip) =>
          if !Truthy(ip) then Step(Returned(None), create + init.calls)
          else
            var rest := ConfigureAddressed(args, env, w, agent, droplet, ip.value);
            Step(rest.value, create + init.calls + rest.calls)
  }

  /** No droplet is created or deleted by these requests. */
  predicate KeepsDroplets(calls: seq<Call>) {
    forall c :: c in calls ==> !c.CreateDroplet? && !c.DeleteDroplet?
  }

  /** `createDroplet` issues exactly one creation request, first, and never
      deletes a droplet, whichever stage fails. */
  lemma CreateDropletCallsOnce(args: CreateArgs, env: Env, w: CreateReplies, agent: Agent)
    ensures var calls := CreateDropletWith(args, env, w, agent).calls;
            && calls[0].CreateDroplet?
            && (forall k :: 1 <= k < |calls| ==> !calls[k].CreateDroplet?)
            && (forall c :: c in calls ==> !c.DeleteDroplet?)
  {
    var calls := CreateDropletWith(args, env, w, agent).calls;
    var after := AfterCreate(args, env, w, agent);
    AfterCreateFollowsCreate(args, env, w, agent);
    assert calls == [CreateDroplet(BuildDropletConfig(args, env.stage, env.sshKeys))] + after;
    assert forall k :: 1 <= k < |calls| ==> calls[k] == after[k - 1];
  }

  /** The requests `createDroplet` issues after the creation request. */
  function AfterCreate(args: CreateArgs, env: Env, w: CreateReplies, agent: Agent): (r: seq<Call>)
    ensures KeepsDroplets(r)
  {
    if !(w.created.Response? && w.created.status == 202) then []
    else
      var init := CheckDropletStatusOnInit(w.created.body.id, env.firewallId, w.init);
      InitKeepsDroplets(w.created.body.id, env.firewallId, w.init);
      if init.value.Returned? && Truthy(init.value.value) then
        var rest := ConfigureAddressed(args, env, w, agent, w.created.body, init.value.value.value).calls;
        ConfigureAddressedCallKinds(args, env, w, agent, w.created.body, init.value.value.value);
        StageCallsKeepDroplets(rest);
        KeepsAppend(init.calls, rest);
        init.calls + rest
      else init.calls
  }

  lemma InitKeepsDroplets(dropletId: int, firewallName: Option<string>, w: InitReplies)
    ensures KeepsDroplets(CheckDropletStatusOnInit(dropletId, firewallName, w).calls)
  {
    InitNeverDeletes(dropletId, firewallName, w);
  }

  lemma KeepsAppend(a: seq<Call>, b: seq<Call>)
    requires KeepsDroplets(a) && KeepsDroplets(b)
    ensures KeepsDroplets(a + b)
  {
  }

  lemma AfterCreateFollowsCreate(args: CreateArgs, env: Env, w: CreateReplies, agent: Agent)
    ensures CreateDropletWith(args, env, w, agent).calls
            == [CreateDroplet(BuildDropletConfig(args, env.stage, env.sshKeys))] + AfterCreate(args, env, w, agent)
  {
    var create := [CreateDroplet(BuildDropletConfig(args, env.stage, env.sshKeys))];
    if w.created.Response? && w.created.status == 202 {
      var init := CheckDropletStatusOnInit(w.created.body.id, env.firewallId, w.init);
      if init.value.Returned? && Truthy(init.value.value) {
        var rest := ConfigureAddressed(args, env, w, agent, w.created.body, init.value.value.value).calls;
        assert CreateDropletWith(args, env, w, agent).calls == create + init.calls + rest;
        assert AfterCreate(args, env, w, agent) == init.calls + rest;
        ConcatAssoc(create, init.calls, rest);
      } else {
        assert CreateDropletWith(args, env, w, agent).calls == create + init.calls;
      }
    }
  }

  /** The requests of the stages after the droplet is addressed: DNS and the SSH session. */
  predicate StageCall(c: Call) {
    Subdomain.DnsCall(c) || c.Connect? || c.Exec? || c.Dispose?
  }

  lemma ConfigureAddressedCallKinds(args: CreateArgs, env: Env, w: CreateReplies, agent: Agent, droplet: Droplet,
                                    ip: string)
    ensures forall c :: c in ConfigureAddressed(args, env, w, agent, droplet, ip).calls ==> StageCall(c)
  {
    var calls := ConfigureAddressed(args, env, w, agent, droplet, ip).calls;
    if Truthy(env.domain) && args.subdomain != "" && ip != "" {
      var dns := Subdomain.AddSubdomain(env.domain, args.subdomain, ip, w.dns);
      Subdomain.AddSubdomainCallKinds(env.domain, args.subdomain, ip, w.dns);
      if dns.value == Returned(true) && SslConfigured(env) && w.privateKey.Some? {
        var updated := RunAgent(agent, AgentRequest(args, env, w, ip), env.signingEmail, w.remote).calls;
        assert calls == dns.calls + updated;
      } else {
        assert calls == dns.calls;
      }
    }
  }

  lemma StageCallsKeepDroplets(calls: seq<Call>)
    requires forall c :: c in calls ==> StageCall(c)
    ensures KeepsDroplets(calls)
  {
  }

  /** `createDroplet` with the corrected agent. */
  function CreateDropletOutcome(args: CreateArgs, env: Env, w: CreateReplies)
    : (r: Step<Completion<Option<Deployed>>, Call>)
    ensures r.value.Returned? && r.value.value.Some? ==>
              && w.remote.connects
              && NginxSsl.AllSucceed(r.value.value.value.domain, env.signingEmail, w.remote.exec)
  {
    var r := CreateDropletWith(args, env, w, Corrected);
    if r.value.Returned? && r.value.value.Some? then
      var init := CheckDropletStatusOnInit(w.created.body.id, env.firewallId, w.init).value;
      var ip := init.value.value;
      assert RunAgent(Corrected, AgentRequest(args, env, w, ip), env.signingEmail, w.remote).value.status == 200;
      r
    else r
  }

  /** `createDroplet` as written: it trusts the always-200 agent status. */
  function CreateDropletAsWritten(args: CreateArgs, env: Env, w: CreateReplies)
    : (r: Step<Completion<Option<Deployed>>, Call>)
    ensures !r.value.Threw?
  {
    CreateDropletWith(args, env, w, AsWritten)
  }

  /** The agent only matters through the status it reports: two agents that
      report the same verdict for this request lead to the same outcome. */
  lemma {:induction false} OutcomeDependsOnlyOnAgentVerdict(args: CreateArgs, env: Env, w: CreateReplies,
                                                            droplet: Droplet, ip: string)
    requires Truthy(env.domain) && SslConfigured(env) && w.privateKey.Some?
    requires (RunAgent(AsWritten, AgentRequest(args, env, w, ip), env.signingEmail, w.remote).value.status == 200)
             == (RunAgent(Corrected, AgentRequest(args, env, w, ip), env.signingEmail, w.remote).value.status == 200)
    ensures ConfigureAddressed(args, env, w, AsWritten, droplet, ip).value
            == ConfigureAddressed(args, env, w, Corrected, droplet, ip).value
  {
    AddressedVerdict(args, env, w, AsWritten, droplet, ip);
    AddressedVerdict(args, env, w, Corrected, droplet, ip);
  }

  /** Once the guards hold, the stage's outcome is fixed by the subdomain's
      outcome and the agent's status alone. */
  lemma AddressedVerdict(args: CreateArgs, env: Env, w: CreateReplies, agent: Agent, droplet: Droplet, ip: string)
    ensures var x := ConfigureAddressed(args, env, w, agent, droplet, ip).value;
            var dns := Subdomain.AddSubdomain(env.domain, args.subdomain, ip, w.dns).value;
            if !Truthy(env.domain) || args.subdomain == "" || ip == "" then x == Returned(None)
            else if dns != Returned(true) then x == (if dns.StillWaiting? then StillWaiting else Returned(None))
            else
              var ok := && SslConfigured(env) && w.privateKey.Some?
                        && RunAgent(agent, AgentRequest(args, env, w, ip), env.signingEmail, w.remote).value.status == 200;
              x == Returned(if ok then Some(Deployed(droplet, args.subdomain, CompleteDomain(args.subdomain, env.domain.value)))
                            else None)
  {
  }

  /** As written, the outcome of `createDroplet` does not depend on the SSH
      session at all: a refused connection or a failing certbot run still
      yields a deployed droplet. */
  lemma {:induction false} AsWrittenIgnoresRemote(args: CreateArgs, env: Env, w: CreateReplies,
                                                  other: NginxSsl.RemoteReplies)
    ensures CreateDropletAsWritten(args, env, w).value == CreateDropletAsWritten(args, env, w.(remote := other)).value
  {
    var w2 := w.(remote := other);
    if w.created.Response? && w.created.status == 202 {
      var init := CheckDropletStatusOnInit(w.created.body.id, env.firewallId, w.init);
      assert init == CheckDropletStatusOnInit(w2.created.body.id, env.firewallId, w2.init);
      if init.value.Returned? && Truthy(init.value.value) {
        AsWrittenStageIgnoresRemote(args, env, w, other, w.created.body, init.value.value.value);
      }
    }
  }

  lemma AsWrittenStageIgnoresRemote(args: CreateArgs, env: Env, w: CreateReplies, other: NginxSsl.RemoteReplies,
                                    droplet: Droplet, ip: string)
    ensures ConfigureAddressed(args, env, w, AsWritten, droplet, ip).value
            == ConfigureAddressed(args, env, w.(remote := other), AsWritten, droplet, ip).value
  {
    assert Subdomain.AddSubdomain(env.domain, args.subdomain, ip, w.dns)
           == Subdomain.AddSubdomain(env.domain, args.subdomain, ip, w.(remote := other).dns);
  }

  /** Where the as-written workflow reports a deployment although the remote
      configuration failed, the corrected one reports `undefined`; where the
      remote configuration succeeded, both agree. */
  lemma {:induction false} CorrectedRejectsFailedConfiguration(args: CreateArgs, env: Env, w: CreateReplies)
    requires Truthy(env.domain)
    requires !w.remote.connects
             || !NginxSsl.AllSucceed(CompleteDomain(args.subdomain, env.domain.value), env.signingEmail, w.remote.exec)
    ensures CreateDropletOutcome(args, env, w).value.Returned? ==> CreateDropletOutcome(args, env, w).value.value.None?
  {
  }

  lemma {:induction false} AgentsAgreeOnSuccess(args: CreateArgs, env: Env, w: CreateReplies)
    requires Truthy(env.domain)
    requires w.remote.connects
    requires NginxSsl.AllSucceed(CompleteDomain(args.subdomain, env.domain.value), env.signingEmail, w.remote.exec)
    ensures CreateDropletOutcome(args, env, w).value == CreateDropletAsWritten(args, env, w).value
  {
    if w.created.Response? && w.created.status == 202 {
      var init := CheckDropletStatusOnInit(w.created.body.id, env.firewallId, w.init);
      if init.value.Returned? && Truthy(init.value.value) {
        var ip := init.value.value.value;
        CreateValueIsStage(args, env, w, Corrected);
        CreateValueIsStage(args, env, w, AsWritten);
        StageAgentsAgree(args, env, w, w.created.body, ip);
        return;
      }
    }
    CreateValueBeforeStage(args, env, w, Corrected, AsWritten);
  }

  lemma StageAgentsAgree(args: CreateArgs, env: Env, w: CreateReplies, droplet: Droplet, ip: string)
    requires Truthy(env.domain)
    requires w.remote.connects
    requires NginxSsl.AllSucceed(CompleteDomain(args.subdomain, env.domain.value), env.signingEmail, w.remote.exec)
    ensures ConfigureAddressed(args, env, w, Corrected, droplet, ip).value
            == ConfigureAddressed(args, env, w, AsWritten, droplet, ip).value
  {
    if SslConfigured(env) && w.privateKey.Some? {
      OutcomeDependsOnlyOnAgentVerdict(args, env, w, droplet, ip);
    } else {
      AddressedVerdict(args, env, w, Corrected, droplet, ip);
      AddressedVerdict(args, env, w, AsWritten, droplet, ip);
    }
  }

  /** Once the droplet is active and addressed, `createDroplet` answers what
      the remaining stages answer. */
  lemma CreateValueIsStage(args: CreateArgs, env: Env, w: CreateReplies, agent: Agent)
    requires w.created.Response? && w.created.status == 202
    requires var init := CheckDropletStatusOnInit(w.created.body.id, env.firewallId, w.init).value;
             init.Returned? && Truthy(init.value)
    ensures var ip := CheckDropletStatusOnInit(w.created.body.id, env.firewallId, w.init).value.value.value;
            CreateDropletWith(args, env, w, agent).value == ConfigureAddressed(args, env, w, agent, w.created.body, ip).value
  {
  }

  /** Before the droplet is active and addressed, the agent plays no part. */
  lemma CreateValueBeforeStage(args: CreateArgs, env: Env, w: CreateReplies, a1: Agent, a2: Agent)
    requires !(&& w.created.Response? && w.created.status == 202
               && var init := CheckDropletStatusOnInit(w.created.body.id, env.firewallId, w.init).value;
                  init.Returned? && Truthy(init.value))
    ensures CreateDropletWith(args, env, w, a1).value == CreateDropletWith(args, env, w, a2).value
  {
  }
}

=== FILE: resources.dfy ===
/** The resolvers and readiness checks of src/create-droplet.ts: snapshot and
    firewall lookup by trimmed name, firewall attachment, the droplet's public
    address and the bounded reachability probe. */
module Resources {
  import opened Wrappers
  import opened Api
  import opened Text
  import Lookup

  /** Whether a resource name matches a target under `name.trim() === target?.trim()`:
      an undefined target matches nothing. */
  predicate TrimmedNameMatches(name: string, target: Option<string>) {
    target.Some? && Trim(name) == Trim(target.value)
  }

  /** `getSnapshotID` over the reply of `getAvailableSnapshots`: the first
      snapshot whose trimmed name equals the trimmed target; `undefined` when
      the listing failed, is empty, or holds no match. */
  function GetSnapshotID(reply: ListReply<Snapshot>, snapshotName: string): (r: Option<Snapshot>)
    ensures ListBody(reply).None? || ListBody(reply).value == [] ==> r.None?
    ensures r.Some? ==>
              exists k :: 0 <= k < |reply.body.value|
                && reply.body.value[k] == r.value
                && Trim(r.value.name) == Trim(snapshotName)
                && forall j :: 0 <= j < k ==> Trim(reply.body.value[j].name) != Trim(snapshotName)
    ensures ListBody(reply).Some? && r.None? ==>
              forall j :: 0 <= j < |reply.body.value| ==> Trim(reply.body.value[j].name) != Trim(snapshotName)
  {
    match ListBody(reply)
    case None => None
    case Some(snapshots) =>
      if |snapshots| == 0 then None
      else Lookup.Find(snapshots, (s: Snapshot) => TrimmedNameMatches(s.name, Some(snapshotName)))
  }

  /** `getFirewallID` over the reply of `getFirewalls`, matching the configured
      firewall name (which may be unset, and then nothing matches). */
  function GetFirewallID(reply: ListReply<Firewall>, firewallName: Option<string>): (r: Option<Firewall>)
    ensures ListBody(reply).None? || ListBody(reply).value == [] || firewallName.None? ==> r.None?
    ensures r.Some? ==>
              exists k :: 0 <= k < |reply.body.value|
                && reply.body.value[k] == r.value
                && Trim(r.value.name) == Trim(firewallName.value)
                && forall j :: 0 <= j < k ==> Trim(reply.body.value[j].name) != Trim(firewallName.value)
    ensures ListBody(reply).Some? && firewallName.Some? && r.None? ==>
              forall j :: 0 <= j < |reply.body.value| ==>
                Trim(reply.body.value[j].name) != Trim(firewallName.value)
  {
    match ListBody(reply)
    case None => None
    case Some(firewalls) =>
      if |firewalls| == 0 then None
      else Lookup.Find(firewalls, (f: Firewall) => TrimmedNameMatches(f.name, firewallName))
  }

  /** Surrounding spaces on either side never prevent a match. */
  lemma FirewallMatchIgnoresSurroundingSpaces(f: Firewall, pad: string, target: string)
    requires AllSpace(pad)
    requires f.name == pad + target + pad
    requires EdgeClean(target)
    ensures GetFirewallID(Response(200, Some([f])), Some(target)) == Some(f)
  {
    TrimOfWrapped(pad, target, pad);
    TrimOfWrapped([], target, []);
    assert [] + target + [] == target;
    SingleFirewallFound(f, target);
  }

  lemma SingleFirewallFound(f: Firewall, target: string)
    requires TrimmedNameMatches(f.name, Some(target))
    ensures GetFirewallID(Response(200, Some([f])), Some(target)) == Some(f)
  {
    var r := GetFirewallID(Response(200, Some([f])), Some(target));
    assert r.Some?;
  }

  function AttachedMessage(firewallId: string, dropletId: int): string {
    "Successfully added Firewall " + firewallId + " to droplet " + IntToString(dropletId)
  }

  /** `addFirewallToDroplet`: one POST of `{droplet_ids: [dropletId]}`, whose
      reply is classified as 204 → success message, other status with an empty
      body → `undefined`, other status with a body → "Ok", exception → `undefined`.
      `body` is the response data, the empty string standing for no data. */
  function AddFirewallToDroplet(dropletId: int, firewallId: string, reply: Reply<string>)
    : (r: Step<Option<string>, Call>)
    ensures r.calls == [AttachFirewall(firewallId, [dropletId])]
    ensures r.value.Some? <==> reply.Response? && (reply.status == 204 || reply.body != "")
    ensures reply.Response? && reply.status == 204 ==> r.value == Some(AttachedMessage(firewallId, dropletId))
    ensures reply.Response? && reply.status != 204 && reply.body != "" ==> r.value == Some("Ok")
    ensures r.value.Some? ==> r.value.value != ""
  {
    var calls := [AttachFirewall(firewallId, [dropletId])];
    match reply
    case Raised => Step(None, calls)
    case Response(status, data) =>
      if status == 204 then Step(Some(AttachedMessage(firewallId, dropletId)), calls)
      else if data == "" then Step(None, calls)
      else Step(Some("Ok"), calls)
  }

  predicate IsPublic(n: Network) {
    n.kind == "public"
  }

  /** `getDropletIP`: the address of the first v4 network tagged "public";
      `undefined` on an exception, a status other than 200, or no public network. */
  function GetDropletIP(reply: Reply<Droplet>): (r: Option<string>)
    ensures r.Some? <==>
              reply.Response? && reply.status == 200
              && exists k :: 0 <= k < |reply.body.v4| && IsPublic(reply.body.v4[k])
    ensures r.Some? ==>
              exists k :: 0 <= k < |reply.body.v4| && IsPublic(reply.body.v4[k])
                && r.value == reply.body.v4[k].ipAddress
                && forall j :: 0 <= j < k ==> !IsPublic(reply.body.v4[j])
  {
    match reply
    case Raised => None
    case Response(status, droplet) =>
      if status != 200 then None
      else
        match Lookup.Find(droplet.v4, IsPublic)
        case None => None
        case Some(n) => Some(n.ipAddress)
  }

  // ---------------------------------------------------------------- network access

  const DefaultPort: int := 80
  const DefaultMaxAttempts: int := 30
  /** The pause after each unsuccessful probe. The probe's own 1 s timeout
      is not a request of its own: a probe that times out ends in `ProbeRaised`. */
  const ProbeIntervalMs: int := 1000

  /** How one reachability probe ended: a response status or an exception (swallowed). */
  datatype ProbeReply = ProbeRaised | ProbeStatus(status: int)

  predicate Succeeds(p: ProbeReply) {
    p == ProbeStatus(200)
  }

  function Max0(n: int): nat {
    if n > 0 then n else 0
  }

  /** The `for (attempt ...; attempt < maxAttempts; ...)` loop from `attempt`
      on; `probe(k)` is how the k-th attempt ends. */
  function ProbeLoop(ip: string, port: int, attempt: nat, maxAttempts: int, probe: nat -> ProbeReply)
    : (r: Step<bool, Call>)
    ensures r.value <==> exists k :: attempt <= k < maxAttempts && Succeeds(probe(k))
    ensures Probes(r.calls) <= Max0(maxAttempts - attempt)
    ensures !r.value ==> Probes(r.calls) == Max0(maxAttempts - attempt)
    ensures r.value ==> Probes(r.calls) >= 1
    ensures r.value ==> Succeeds(probe(attempt + Probes(r.calls) - 1))
    ensures r.value ==> forall k :: attempt <= k < attempt + Probes(r.calls) - 1 ==> !Succeeds(probe(k))
    decreases maxAttempts - attempt
  {
    if attempt >= maxAttempts then Step(false, [])
    else if Succeeds(probe(attempt)) then Step(true, [ProbeHttp(ip, port)])
    else
      var rest := ProbeLoop(ip, port, attempt + 1, maxAttempts, probe);
      ProbesAppend([ProbeHttp(ip, port), Pause(ProbeIntervalMs)], rest.calls);
      Step(rest.value, [ProbeHttp(ip, port), Pause(ProbeIntervalMs)] + rest.calls)
  }

  /** `waitForNetworkAccess`: look up the droplet's public address (a falsy
      address gives `false` without probing), then probe `http://ip:port` at
      most `maxAttempts` times, each failure or exception followed by a pause;
      `true` exactly when some probe within the budget answers 200. */
  function WaitForNetworkAccess(dropletId: int, ipReply: Reply<Droplet>, port: int, maxAttempts: int,
                                probe: nat -> ProbeReply)
    : (r: Step<bool, Call>)
    ensures |r.calls| >= 1 && r.calls[0] == GetDroplet(dropletId)
    ensures !Truthy(GetDropletIP(ipReply)) ==> !r.value && r.calls == [GetDroplet(dropletId)]
    ensures r.value <==>
              Truthy(GetDropletIP(ipReply)) && exists k :: 0 <= k < maxAttempts && Succeeds(probe(k))
    ensures Probes(r.calls) <= Max0(maxAttempts)
    ensures Truthy(GetDropletIP(ipReply)) && !r.value ==> Probes(r.calls) == Max0(maxAttempts)
    ensures forall c :: c in r.calls ==> c.GetDroplet? || c.ProbeHttp? || c.Pause?
  {
    var ip := GetDropletIP(ipReply);
    if !Truthy(ip) then Step(false, [GetDroplet(dropletId)])
    else
      var loop := ProbeLoop(ip.value, port, 0, maxAttempts, probe);
      ProbeLoopCallKinds(ip.value, port, 0, maxAttempts, probe);
      ProbesAppend([GetDroplet(dropletId)], loop.calls);
      Step(loop.value, [GetDroplet(dropletId)] + loop.calls)
  }

  lemma {:induction false} ProbeLoopCallKinds(ip: string, port: int, attempt: nat, maxAttempts: int,
                                              probe: nat -> ProbeReply)
    ensures forall c :: c in ProbeLoop(ip, port, attempt, maxAttempts, probe).calls ==>
              c == ProbeHttp(ip, port) || c == Pause(ProbeIntervalMs)
    decreases maxAttempts - attempt
  {
    if attempt < maxAttempts && !Succeeds(probe(attempt)) {
      ProbeLoopCallKinds(ip, port, attempt + 1, maxAttempts, probe);
    }
  }

  /** A probe that always fails exhausts the budget: exactly `maxAttempts`
      probes, then `false`, never a hang or an exception. */
  lemma AlwaysFailingProbeTimesOut(dropletId: int, ipReply: Reply<Droplet>, maxAttempts: int,
                                   probe: nat -> ProbeReply)
    requires Truthy(GetDropletIP(ipReply))
    requires forall k :: !Succeeds(probe(k))
    ensures !WaitForNetworkAccess(dropletId, ipReply, DefaultPort, maxAttempts, probe).value
    ensures Probes(WaitForNetworkAccess(dropletId, ipReply, DefaultPort, maxAttempts, probe).calls)
         == Max0(maxAttempts)
  {
  }
}

=== FILE: subdomain.dfy ===
/** DNS "A" records under the root domain (src/subdomain.ts): the subdomain
    listing, lookup, creation with its readiness wait, and deletion. */
module Subdomain {
  import opened Wrappers
  import opened Api
  import opened Text
  import Lookup

  const RecordTtl: int := 1800
  /** The pause between two readiness checks. */
  const ReadyPollMs: int := 10000

  /** A record the listing reports as a subdomain: an "A" record other than
      the root ("@") and the reserved "api" label. */
  predicate IsSubdomainRecord(rec: DnsRecord) {
    rec.kind == "A" && rec.name != "@" && rec.name != "api"
  }

  function ToEntry(rec: DnsRecord, domain: string): SubdomainEntry {
    SubdomainEntry(rec.id, rec.name, domain, rec.data)
  }

  /** The filtering loop of `listSubdomains`. */
  function SubdomainsOf(records: seq<DnsRecord>, domain: string): (r: seq<SubdomainEntry>)
    ensures |r| <= |records|
    ensures forall e :: e in r ==> e.domain == domain
  {
    if |records| == 0 then []
    else
      var rest := SubdomainsOf(records[1..], domain);
      if IsSubdomainRecord(records[0]) then [ToEntry(records[0], domain)] + rest else rest
  }

  /** The listing distributes over concatenation; together with the
      single-record case below this determines it completely: it keeps, in
      order, exactly the subdomain records. */
  lemma {:induction false} SubdomainsOfAppend(a: seq<DnsRecord>, b: seq<DnsRecord>, domain: string)
    ensures SubdomainsOf(a + b, domain) == SubdomainsOf(a, domain) + SubdomainsOf(b, domain)
    decreases |a|
  {
    if |a| == 0 {
      assert a + b == b;
    } else {
      assert (a + b)[1..] == a[1..] + b;
      SubdomainsOfAppend(a[1..], b, domain);
    }
  }

  lemma SubdomainsOfSingle(rec: DnsRecord, domain: string)
    ensures SubdomainsOf([rec], domain) == (if IsSubdomainRecord(rec) then [ToEntry(rec, domain)] else [])
  {
  }

  /** Membership in both directions: an entry is listed exactly when it is
      built from some subdomain record. */
  lemma {:induction false} SubdomainsOfMembers(records: seq<DnsRecord>, domain: string, e: SubdomainEntry)
    ensures e in SubdomainsOf(records, domain) <==>
              exists k :: 0 <= k < |records| && IsSubdomainRecord(records[k]) && e == ToEntry(records[k], domain)
  {
    if |records| > 0 {
      SubdomainsOfMembers(records[1..], domain, e);
      if exists k :: 0 <= k < |records| && IsSubdomainRecord(records[k]) && e == ToEntry(records[k], domain) {
        var k :| 0 <= k < |records| && IsSubdomainRecord(records[k]) && e == ToEntry(records[k], domain);
        if k > 0 {
          assert records[1..][k - 1] == records[k];
        }
      }
      if e in SubdomainsOf(records[1..], domain) {
        var k :| 0 <= k < |records[1..]| && IsSubdomainRecord(records[1..][k]) && e == ToEntry(records[1..][k], domain);
        assert records[k + 1] == records[1..][k];
      }
    }
  }

  /** `listSubdomains`: throws before any request when the root domain is
      unset; otherwise one listing request, and every failure (exception,
      status other than 200, missing or empty record list) yields `[]`. */
  function ListSubdomains(domain: Option<string>, reply: ListReply<DnsRecord>)
    : (r: Step<Completion<seq<SubdomainEntry>>, Call>)
    ensures !Truthy(domain) <==> r.value == Threw
    ensures !Truthy(domain) ==> r.calls == []
    ensures Truthy(domain) ==> r.calls == [ListRecords] && r.value.Returned?
    ensures Truthy(domain) && ListBody(reply).None? ==> r.value == Returned([])
    ensures Truthy(domain) && ListBody(reply).Some? ==>
              r.value == Returned(SubdomainsOf(reply.body.value, domain.value))
  {
    if !Truthy(domain) then Step(Threw, [])
    else
      var listed :=
        match ListBody(reply)
        case None => []
        case Some(records) => if |records| > 0 then SubdomainsOf(records, domain.value) else [];
      Step(Returned(listed), [ListRecords])
  }

  predicate Labelled(subdomain: string, e: SubdomainEntry) {
    e.subdomain == subdomain
  }

  /** `checkIfSubdomainExists`: the first listed entry whose label equals the
      argument exactly; a throw of the listing passes through. */
  function CheckIfSubdomainExists(domain: Option<string>, reply: ListReply<DnsRecord>, subdomain: string)
    : (r: Step<Completion<Option<SubdomainEntry>>, Call>)
    ensures r.calls == ListSubdomains(domain, reply).calls
    ensures r.value.Threw? <==> !Truthy(domain)
    ensures r.value.Returned? ==>
              var listed := ListSubdomains(domain, reply).value.value;
              (r.value.value.None? <==> forall j :: 0 <= j < |listed| ==> listed[j].subdomain != subdomain)
              && (r.value.value.Some? ==>
                    exists k :: 0 <= k < |listed| && listed[k] == r.value.value.value
                      && r.value.value.value.subdomain == subdomain
                      && forall j :: 0 <= j < k ==> listed[j].subdomain != subdomain)
  {
    var listing := ListSubdomains(domain, reply);
    match listing.value
    case Returned(listed) => Step(Returned(Lookup.Find(listed, e => Labelled(subdomain, e))), listing.calls)
    case _ => Step(Threw, listing.calls)
  }

  /** Whether a listing reply shows the label. */
  predicate Visible(domain: Option<string>, reply: ListReply<DnsRecord>, subdomain: string) {
    var c := CheckIfSubdomainExists(domain, reply, subdomain).value;
    c.Returned? && c.value.Some?
  }

  /** Whether some listing of the trace shows the label. */
  predicate ShownIn(domain: Option<string>, listings: seq<ListReply<DnsRecord>>, subdomain: string) {
    exists k :: 0 <= k < |listings| && Visible(domain, listings[k], subdomain)
  }

  /** `awaitForSubdomainReady`: re-list every 10 seconds until the label shows
      up. `listings` is the finite trace of listing replies the loop sees. */
  function AwaitForSubdomainReady(domain: Option<string>, subdomain: string, listings: seq<ListReply<DnsRecord>>)
    : (r: Step<Completion<bool>, Call>)
    ensures r.value.Returned? ==> r.value.value
    ensures r.value.Returned? <==>
              Truthy(domain) && ShownIn(domain, listings, subdomain)
    ensures r.value.Threw? <==> !Truthy(domain)
    ensures !Truthy(domain) ==> r.calls == []
    ensures forall j :: 0 <= j < |r.calls| ==> r.calls[j] == ListRecords || r.calls[j] == Pause(ReadyPollMs)
  {
    if !Truthy(domain) then Step(Threw, [])
    else if |listings| == 0 then Step(StillWaiting, [])
    else if Visible(domain, listings[0], subdomain) then Step(Returned(true), [ListRecords])
    else
      var rest := AwaitForSubdomainReady(domain, subdomain, listings[1..]);
      assert forall k :: 1 <= k < |listings| ==> listings[1..][k - 1] == listings[k];
      assert ShownIn(domain, listings, subdomain) <==> ShownIn(domain, listings[1..], subdomain);
      Step(rest.value, [ListRecords, Pause(ReadyPollMs)] + rest.calls)
  }

  function PayloadFor(subdomain: string, ipAddress: string): RecordPayload {
    RecordPayload("A", subdomain, ipAddress, RecordTtl)
  }

  /** The DNS replies `addSubdomain` sees: the existence check, the creation
      request and the readiness trace. */
  datatype DnsReplies = DnsReplies(existing: ListReply<DnsRecord>, created: Reply<()>,
                                   readiness: seq<ListReply<DnsRecord>>)

  /** `addSubdomain`: `true` at once if the label already exists; otherwise
      create an "A" record with a TTL of 1800, answer `false` on an exception
      or a status other than 200/201, and `true` only once the readiness wait
      has seen the record. */
  function AddSubdomain(domain: Option<string>, subdomain: string, ipAddress: string, w: DnsReplies)
    : (r: Step<Completion<bool>, Call>)
    ensures r.value.Threw? <==> !Truthy(domain)
    ensures Visible(domain, w.existing, subdomain) ==>
              r.value == Returned(true) && forall c :: c in r.calls ==> !c.CreateRecord?
    ensures Truthy(domain) && !Visible(domain, w.existing, subdomain) ==>
              |r.calls| >= 2 && r.calls[0] == ListRecords && r.calls[1] == CreateRecord(PayloadFor(subdomain, ipAddress))
    ensures r.value == Returned(true) ==>
              Visible(domain, w.existing, subdomain)
              || (w.created.Response? && w.created.status in {200, 201}
                  && ShownIn(domain, w.readiness, subdomain))
    ensures (Truthy(domain) && !Visible(domain, w.existing, subdomain)
             && (w.created.Raised? || w.created.status !in {200, 201})) ==> r.value == Returned(false)
    ensures (Truthy(domain) && !Visible(domain, w.existing, subdomain)
             && w.created.Response? && w.created.status in {200, 201}
             && ShownIn(domain, w.readiness, subdomain))
            ==> r.value == Returned(true)
    ensures r.value == Returned(false) ==>
              Truthy(domain) && !Visible(domain, w.existing, subdomain)
              && (w.created.Raised? || w.created.status !in {200, 201})
    ensures forall j :: 0 <= j < |r.calls| && r.calls[j].CreateRecord? ==>
              j == 1 && Truthy(domain) && !Visible(domain, w.existing, subdomain)
  {
    var check := CheckIfSubdomainExists(domain, w.existing, subdomain);
    match check.value
    case Threw => Step(Threw, check.calls)
    case StillWaiting => Step(Threw, check.calls)
    case Returned(found) =>
      if found.Some? then Step(Returned(true), check.calls)
      else
        var created := CreateAndAwait(domain, subdomain, ipAddress, w);
        Step(created.value, check.calls + created.calls)
  }

  /** The part of `addSubdomain` after the label was found absent: the
      creation request, then the readiness wait on a 200/201 answer. */
  function CreateAndAwait(domain: Option<string>, subdomain: string, ipAddress: string, w: DnsReplies)
    : (r: Step<Completion<bool>, Call>)
    ensures |r.calls| >= 1 && r.calls[0] == CreateRecord(PayloadFor(subdomain, ipAddress))
    ensures forall j :: 1 <= j < |r.calls| ==> r.calls[j] == ListRecords || r.calls[j] == Pause(ReadyPollMs)
    ensures !r.value.Threw?
    ensures r.value == Returned(false) <==>
              w.created.Raised? || w.created.status !in {200, 201} || !Truthy(domain)
    ensures r.value == Returned(true) <==>
              w.created.Response? && w.created.status in {200, 201}
              && Truthy(domain) && ShownIn(domain, w.readiness, subdomain)
  {
    var calls := [CreateRecord(PayloadFor(subdomain, ipAddress))];
    match w.created
    case Raised => Step(Returned(false), calls)
    case Response(status, _) =>
      if status != 200 && status != 201 then Step(Returned(false), calls)
      else
        var ready := AwaitForSubdomainReady(domain, subdomain, w.readiness);
        match ready.value
        case Returned(_) => Step(Returned(true), calls + ready.calls)
        case Threw => Step(Returned(false), calls + ready.calls)
        case StillWaiting => Step(StillWaiting, calls + ready.calls)
  }

  /** The requests the DNS operations issue. */
  predicate DnsCall(c: Call) {
    c.ListRecords? || c.CreateRecord? || c.DeleteRecord? || c.Pause?
  }

  lemma {:induction false} AwaitCallKinds(domain: Option<string>, subdomain: string,
                                          listings: seq<ListReply<DnsRecord>>)
    ensures forall c :: c in AwaitForSubdomainReady(domain, subdomain, listings).calls ==> c.ListRecords? || c.Pause?
    decreases |listings|
  {
    if |listings| > 0 {
      AwaitCallKinds(domain, subdomain, listings[1..]);
    }
  }

  /** `addSubdomain` only ever talks to the DNS API (and pauses). */
  lemma AddSubdomainCallKinds(domain: Option<string>, subdomain: string, ipAddress: string, w: DnsReplies)
    ensures forall c :: c in AddSubdomain(domain, subdomain, ipAddress, w).calls ==> DnsCall(c)
  {
    AwaitCallKinds(domain, subdomain, w.readiness);
  }

  function DeletedMessage(recordId: int): string {
    "Subdomain with ID " + IntToString(recordId) + " has been deleted successfully"
  }

  /** `deleteSubdomain`: `undefined` without any delete request when the label
      is not listed; otherwise one delete request, successful only on 204. */
  function DeleteSubdomain(domain: Option<string>, subdomain: string, existing: ListReply<DnsRecord>,
                           deleted: Reply<()>)
    : (r: Step<Completion<Option<string>>, Call>)
    ensures r.value.Threw? <==> !Truthy(domain)
    ensures !Visible(domain, existing, subdomain) ==> forall c :: c in r.calls ==> !c.DeleteRecord?
    ensures Truthy(domain) && !Visible(domain, existing, subdomain) ==> r.value == Returned(None)
    ensures r.value.Returned? && r.value.value.Some? <==>
              Visible(domain, existing, subdomain) && deleted.Response? && deleted.status == 204
    ensures Visible(domain, existing, subdomain) ==>
              var rec := CheckIfSubdomainExists(domain, existing, subdomain).value.value.value;
              |r.calls| >= 1 && r.value.Returned?
              && r.calls[|r.calls| - 1] == DeleteRecord(rec.id)
              && (r.value.value.Some? ==> r.value.value.value == DeletedMessage(rec.id))
  {
    var check := CheckIfSubdomainExists(domain, existing, subdomain);
    match check.value
    case Threw => Step(Threw, check.calls)
    case StillWaiting => Step(Threw, check.calls)
    case Returned(found) =>
      match found
      case None => Step(Returned(None), check.calls)
      case Some(rec) =>
        var calls := check.calls + [DeleteRecord(rec.id)];
        if deleted.Response? && deleted.status == 204 then Step(Returned(Some(DeletedMessage(rec.id))), calls)
        else Step(Returned(None), calls)
  }
}

=== FILE: text.dfy ===
/** The string operations the source borrows from JavaScript: `trim`,
    `split(",")` with its inverse `join`, substring containment and the
    decimal rendering of numbers inside template literals. */
module Text {

  /** The characters `String.prototype.trim` removes: ECMAScript WhiteSpace
      and LineTerminator code points. */
  predicate IsSpace(c: char) {
    var n := c as int;
    n == 0x20 || 0x09 <= n <= 0x0D || n == 0xA0 || n == 0x1680
    || 0x2000 <= n <= 0x200A || n == 0x2028 || n == 0x2029 || n == 0x202F
    || n == 0x205F || n == 0x3000 || n == 0xFEFF
  }

  predicate AllSpace(s: string) {
    forall i :: 0 <= i < |s| ==> IsSpace(s[i])
  }

  /** Neither end of `s` is a space character. */
  predicate EdgeClean(s: string) {
    s == [] || (!IsSpace(s[0]) && !IsSpace(s[|s| - 1]))
  }

  function TrimStart(s: string): (r: string)
    ensures |r| <= |s| && r == s[|s| - |r|..]
    ensures r == [] || !IsSpace(r[0])
    ensures forall i :: 0 <= i < |s| - |r| ==> IsSpace(s[i])
  {
    if |s| > 0 && IsSpace(s[0]) then TrimStart(s[1..]) else s
  }

  function TrimEnd(s: string): (r: string)
    ensures |r| <= |s| && r == s[..|r|]
    ensures r == [] || !IsSpace(r[|r| - 1])
    ensures forall i :: |r| <= i < |s| ==> IsSpace(s[i])
  {
    if |s| > 0 && IsSpace(s[|s| - 1]) then TrimEnd(s[..|s| - 1]) else s
  }

  /** `String.prototype.trim`. */
  function Trim(s: string): (r: string)
    ensures EdgeClean(r)
    ensures |r| <= |s|
  {
    TrimEnd(TrimStart(s))
  }

  /** `s` is its trimmed form wrapped in two runs of spaces. */
  lemma TrimDecomposes(s: string) returns (a: string, b: string)
    ensures AllSpace(a) && AllSpace(b)
    ensures s == a + Trim(s) + b
  {
    var t;
    a, t := LeadingRun(s);
    var r;
    r, b := TrailingRun(t);
    assert r == Trim(s);
    ConcatAssoc(a, r, b);
  }

  lemma ConcatAssoc<T>(x: seq<T>, y: seq<T>, z: seq<T>)
    ensures x + y + z == x + (y + z)
  {
  }

  lemma LeadingRun(s: string) returns (a: string, t: string)
    ensures t == TrimStart(s) && AllSpace(a) && s == a + t
  {
    t := TrimStart(s);
    a := s[..|s| - |t|];
    assert s == a + t;
    forall i | 0 <= i < |a|
      ensures IsSpace(a[i])
    {
      assert a[i] == s[i];
    }
  }

  lemma TrailingRun(t: string) returns (r: string, b: string)
    ensures r == TrimEnd(t) && AllSpace(b) && t == r + b
  {
    r := TrimEnd(t);
    b := t[|r|..];
    forall i | 0 <= i < |b|
      ensures IsSpace(b[i])
    {
      assert b[i] == t[|r| + i];
    }
  }

  lemma {:induction false} TrimStartOfSpaces(a: string, t: string)
    requires AllSpace(a)
    requires t == [] || !IsSpace(t[0])
    ensures TrimStart(a + t) == t
    decreases |a|
  {
    if |a| > 0 {
      assert (a + t)[1..] == a[1..] + t;
      TrimStartOfSpaces(a[1..], t);
    } else {
      assert a + t == t;
    }
  }

  lemma {:induction false} TrimEndOfSpaces(t: string, b: string)
    requires AllSpace(b)
    requires t == [] || !IsSpace(t[|t| - 1])
    ensures TrimEnd(t + b) == t
    decreases |b|
  {
    if |b| > 0 {
      assert (t + b)[..|t + b| - 1] == t + b[..|b| - 1];
      TrimEndOfSpaces(t, b[..|b| - 1]);
    } else {
      assert t + b == t;
    }
  }

  /** Trim is determined by the decomposition: whatever edge-clean core is
      wrapped in spaces is exactly what `trim` gives back. */
  lemma TrimOfWrapped(a: string, r: string, b: string)
    requires AllSpace(a) && AllSpace(b) && EdgeClean(r)
    ensures Trim(a + r + b) == r
  {
    if r == [] {
      assert a + r + b == a + b;
      assert AllSpace(a + b);
      assert (a + b)[..|a + b| - |TrimStart(a + b)|] == a + b;
      assert TrimStart(a + b) == [];
    } else {
      assert a + r + b == a + (r + b);
      TrimStartOfSpaces(a, r + b);
      TrimEndOfSpaces(r, b);
    }
  }

  // ---------------------------------------------------------------- split / join

  function Occurrences(s: string, c: char): nat {
    if |s| == 0 then 0 else (if s[0] == c then 1 else 0) + Occurrences(s[1..], c)
  }

  /** `s.split(sep)` for a one-character separator: the maximal separator-free
      pieces, one more than there are separators (so `""` splits to `[""]`). */
  function Split(s: string, sep: char): (parts: seq<string>)
    ensures |parts| == Occurrences(s, sep) + 1
    ensures forall i :: 0 <= i < |parts| ==> sep !in parts[i]
  {
    if |s| == 0 then [""]
    else if s[0] == sep then [""] + Split(s[1..], sep)
    else
      var rest := Split(s[1..], sep);
      [[s[0]] + rest[0]] + rest[1..]
  }

  /** `parts.join(sep)`. */
  function Join(parts: seq<string>, sep: char): string {
    if |parts| == 0 then ""
    else if |parts| == 1 then parts[0]
    else parts[0] + [sep] + Join(parts[1..], sep)
  }

  /** Joining the pieces of a split gives back the original string. */
  lemma {:induction false} JoinSplit(s: string, sep: char)
    ensures Join(Split(s, sep), sep) == s
    decreases |s|
  {
    if |s| == 0 {
    } else if s[0] == sep {
      var rest := Split(s[1..], sep);
      JoinSplit(s[1..], sep);
      assert Split(s, sep) == [""] + rest;
      assert ([""] + rest)[1..] == rest;
    } else {
      var rest := Split(s[1..], sep);
      JoinSplit(s[1..], sep);
      var parts := [[s[0]] + rest[0]] + rest[1..];
      assert Split(s, sep) == parts;
      if |rest| == 1 {
        assert Join(parts, sep) == [s[0]] + rest[0] == [s[0]] + s[1..];
      } else {
        assert parts[1..] == rest[1..];
        assert Join(rest, sep) == rest[0] + [sep] + Join(rest[1..], sep);
        assert Join(parts, sep) == [s[0]] + rest[0] + [sep] + Join(rest[1..], sep);
      }
      assert s == [s[0]] + s[1..];
    }
  }

  /** Splitting a join of separator-free pieces gives back the pieces. */
  lemma {:induction false} SplitJoin(parts: seq<string>, sep: char)
    requires |parts| >= 1
    requires forall i :: 0 <= i < |parts| ==> sep !in parts[i]
    ensures Split(Join(parts, sep), sep) == parts
    decreases |parts|, |parts[0]|
  {
    var p := parts[0];
    if |p| == 0 {
      if |parts| == 1 {
      } else {
        SplitJoin(parts[1..], sep);
        assert Join(parts, sep) == [sep] + Join(parts[1..], sep);
        assert ([sep] + Join(parts[1..], sep))[1..] == Join(parts[1..], sep);
        assert parts == [""] + parts[1..];
      }
    } else {
      var shorter := [p[1..]] + parts[1..];
      assert shorter[1..] == parts[1..];
      assert forall i :: 0 <= i < |shorter| ==> sep !in shorter[i] by {
        forall i | 0 <= i < |shorter| ensures sep !in shorter[i] {
          if i == 0 {
            assert forall k :: 0 <= k < |p[1..]| ==> p[1..][k] == p[k + 1];
          } else {
            assert shorter[i] == parts[i];
          }
        }
      }
      SplitJoin(shorter, sep);
      var j := Join(parts, sep);
      if |parts| == 1 {
        assert j == [p[0]] + Join(shorter, sep);
      } else {
        assert Join(shorter, sep) == p[1..] + [sep] + Join(parts[1..], sep);
        assert j == [p[0]] + Join(shorter, sep);
      }
      assert j[0] == p[0] && p[0] != sep;
      assert j[1..] == Join(shorter, sep);
      var rest := Split(j[1..], sep);
      assert rest == shorter;
      assert [p[0]] + p[1..] == p;
      assert Split(j, sep) == [[p[0]] + rest[0]] + rest[1..];
    }
  }

  // ---------------------------------------------------------------- containment

  predicate InfixAt(needle: string, hay: string, i: int) {
    0 <= i <= |hay| - |needle| && hay[i..i + |needle|] == needle
  }

  predicate IsInfix(needle: string, hay: string) {
    exists i :: 0 <= i <= |hay| && InfixAt(needle, hay, i)
  }

  lemma InfixOfSuffix(pre: string, needle: string)
    ensures IsInfix(needle, pre + needle)
  {
    assert (pre + needle)[|pre|..|pre| + |needle|] == needle;
    assert InfixAt(needle, pre + needle, |pre|);
  }

  lemma InfixExtends(needle: string, hay: string, post: string)
    requires IsInfix(needle, hay)
    ensures IsInfix(needle, hay + post)
  {
    var i :| 0 <= i <= |hay| && InfixAt(needle, hay, i);
    assert (hay + post)[i..i + |needle|] == hay[i..i + |needle|];
    assert InfixAt(needle, hay + post, i);
  }

  // ---------------------------------------------------------------- numbers

  function DigitChar(d: nat): char
    requires d < 10
  {
    "0123456789"[d]
  }

  predicate IsDigit(c: char) {
    '0' <= c <= '9'
  }

  /** Decimal rendering of a non-negative integer, as a template literal prints it. */
  function NatToString(n: nat): (s: string)
    ensures |s| >= 1 && forall i :: 0 <= i < |s| ==> IsDigit(s[i])
  {
    if n < 10 then [DigitChar(n)] else NatToString(n / 10) + [DigitChar(n % 10)]
  }

  /** Decimal rendering of an integer, with a leading minus for negatives. */
  function IntToString(i: int): (s: string)
    ensures |s| >= 1
    ensures i >= 0 <==> s[0] != '-'
  {
    if i < 0 then "-" + NatToString(-i) else NatToString(i)
  }
}

=== FILE: wrappers.dfy ===
/** Failure-carrying result types shared by every module of the model. */
module Wrappers {

  /** The conventional optional value; `None` stands for JavaScript's `undefined`. */
  datatype Option<+T> = None | Some(value: T)

  /** How a JavaScript async function ended, observed against finite traces of
      collaborator replies: it returned a value, it threw (its promise rejected),
      or it was still inside one of its unbounded polling loops when the trace
      of observations ran out. */
  datatype Completion<+T> = Returned(value: T) | Threw | StillWaiting

  /** An operation's result together with the outbound calls it made, in order. */
  datatype Step<+T, +C> = Step(value: T, calls: seq<C>)

  /** JavaScript truthiness of an optional string: defined and non-empty. */
  predicate Truthy(s: Option<string>) {
    s.Some? && s.value != ""
  }
}
